=== FILE: README.md ===
# financeProj storage and fetch core, in Dafny

financeProj is a small personal market-data pipeline. It downloads one year of
daily stock bars and crypto prices, writes them as tables under a storage
root, and moves locally written files into a OneDrive folder. This project
models the logic of that pipeline that decides anything:

- **Storage-root resolution** (`src/config.py`), module `Config`.
  - `load_env_override` reads `FINANCEPROJ_STORAGE` from the environment, or
    else from the project's `.env` file. Lines are stripped, comments and lines
    without `=` are skipped, each line is split on its first `=`, the first
    matching key wins, and the value has whitespace, then `"`, then `'` stripped.
  - `detect_onedrive_root` takes `OneDrive`, or else `OneDriveCommercial`, and
    accepts it only when it contains the user name `jooch`.
  - The priority chain override, then OneDrive, then `local_storage` yields
    `STORAGE_ROOT`, `DATA_RAW`, `DATA_PROCESSED` and `CHARTS`.
- **Sync** (`src/sync.py`), module `Sync`.
  - `_iter_files` lists the files below a folder.
  - `sync_local_to_onedrive` moves each file to the same relative path below
    the OneDrive root and counts moves and failures. It then removes the
    emptied folders in reverse-sorted order, so each folder comes after
    everything below it.
  - The filesystem is a map from file paths to contents plus a set of
    directories. `shutil.move` and `mkdir(parents=True)` are modelled by
    `Sync.MoveOne`, with the files whose move raises given as an input set.
- **Fetchers** (`src/data_fetch.py`), modules `Fetch` and `Naming`.
  - `fetch_cg` is a retry loop with doubling backoff. Each request's outcome
    is a function of the attempt number.
  - `fetch_stock_one` tries `yf.download` and falls back to `Ticker.history`.
  - `save_df` names its two output files.
  - The main block prefixes each ticker's columns, keeps the `_Close` columns
    and names them back by ticker.

Helper modules:
- `Text`: Python's `str.strip`, `split(sep, 1)`, `rsplit`, `startswith`,
  `endswith` and `in`.
- `Paths`: a path is a sequence of components. Includes `relative_to` plus `/`
  as `Rebase`.
- `Order`: Python's ordering of path parts, which `sorted` uses.
- `Wrappers`: `Option`.

Two behaviours of `src/data_fetch.py` are easy to misread:
- In `fetch_cg`, a payload with no `prices` key, or with an empty list, is
  retried like any other failure. The code raises `ValueError` inside the
  `try`, and the handler catches it and retries (`Fetch.EmptyPayloadIsFailure`).
- `save_df` writes both formats into one folder: `DATA_RAW` when `where` is
  `"raw"`, `DATA_PROCESSED` for every other value (`Naming.SaveDf`).

## Model

| member | source | states |
|---|---|---|
| Text.StripExact | src/config.py:14 | stripping a set removes exactly the run of its characters at each end and keeps the middle intact |
| Text.StripIdempotent | src/config.py:14 | stripping twice is the same as stripping once |
| Text.SplitFirst | src/config.py:17 | `split(sep, 1)` cuts at the first separator: the head holds no separator and head + sep + tail is the input; no result exactly when the separator is absent |
| Text.SplitFirstInverse | src/config.py:17 | splitting `k + sep + v` with `sep` not in `k` gives back `k` and `v`, even when `v` holds the separator |
| Text.FirstField | src/data_fetch.py:95 | `split("_")[0]` is a prefix of the label free of `_`, followed by `_` unless it is the whole label |
| Config.ParseLine | src/config.py:14-18 | a line assigns something exactly when its stripped text is non-empty, not a comment and holds `=`; then the key is the stripped text before the first `=` and the value everything after it |
| Config.ParseLineSplitsOnFirstEquals | src/config.py:14-18 | a line `k=v` gives key `strip(k)` and value `v` with every later `=` kept |
| Config.ParseLineSkips | src/config.py:14-16 | blank lines, `#` comments and lines without `=` assign nothing |
| Config.FirstDefinition | src/config.py:13-20 | finds the least index of a line assigning the key, and none exactly when no line does |
| Config.FirstDefinitionWins | src/config.py:13-20 | the first assigning line decides the value whatever lines follow it |
| Config.Unquote | src/config.py:19 | the unquoted value neither starts nor ends with `'` |
| Config.UnquoteDoubleThenSingle | src/config.py:19 | `"'m'"` unquotes to `m`, because `"` is stripped before `'` |
| Config.UnquoteKeepsInnerDoubleQuotes | src/config.py:19 | `'"m"'` keeps its double quotes |
| Config.LoadEnvOverride | src/config.py:8-23 | a non-empty environment value is used without reading the dotfile; without it and without a dotfile there is no override; a path comes back only for a non-empty string that exists |
| Config.DotfileDecides | src/config.py:10-23 | with the variable unset, the first dotfile line assigning it decides: its unquoted value, when non-empty and existing |
| Config.DotfileWithoutDefinition | src/config.py:10-23 | with the variable unset and no dotfile line assigning it, there is no override |
| Config.DotfileIgnoredWhenEnvSet | src/config.py:9-10 | with the variable set, the dotfile's contents do not matter |
| Config.OneDriveValue | src/config.py:26 | `OneDrive` when non-empty, else `OneDriveCommercial` |
| Config.DetectOneDriveRoot | src/config.py:25-35 | a root exists exactly when the OneDrive path contains `jooch`, and it is that path extended by the three project folders |
| Config.OneDrivePreferred | src/config.py:26 | with `OneDrive` set, `OneDriveCommercial` cannot change the result |
| Config.LayoutAt | src/config.py:50-52 | the three data folders are distinct and lie below the storage root |
| Config.Resolve | src/config.py:38-52 | the storage root is the override, else the OneDrive root, else `PROJECT_ROOT/local_storage` |
| Config.LocalFallback | src/config.py:43-48 | with no override and no OneDrive variable, every folder is below `local_storage` |
| Config.OverrideBeatsOneDrive | src/config.py:43-44 | an existing environment override wins over a detected OneDrive folder |
| Paths.RebaseRoundTrip | src/sync.py:21-22 | `relative_to` followed by `/` and back gives the original path |
| Paths.RebaseInjective | src/sync.py:21-22 | two different local files never share a destination |
| Paths.RebaseAncestor | src/sync.py:21-24 | one local path is above another exactly when their rebased copies are |
| Order.PathLtStrictTotal | src/sync.py:33 | Python's ordering of path parts is a strict total order, so `sorted` has one answer |
| Sync.IterFiles | src/sync.py:7-12 | lists exactly the files below the root, and nothing when the root is not a folder |
| Sync.Greatest | src/sync.py:33 | the first path of the reverse-sorted listing is larger than every other |
| Sync.PruneFrom | src/sync.py:33-38 | the `rmdir` loop changes no file, only removes folders, and only folders it visits |
| Sync.PruneFromSpec | src/sync.py:33-38 | taking the folders in reverse-sorted order, exactly those with a file beneath them survive |
| Sync.Prune | src/sync.py:33-38 | below the local root exactly the folders still holding a file survive; files and everything outside are unchanged |
| Sync.MoveOne | src/sync.py:24-30 | `mkdir` adds the destination's missing ancestors unless a file stands on one of them; the move happens exactly when `mkdir` succeeded, the move does not raise and the destination is not a folder that already holds the name; a failure changes no file; a move replaces the file at the destination, or goes into the destination when it is a folder |
| Sync.MoveFiles | src/sync.py:19-30 | moved plus failed equals the number of files listed; folders are only added, and only ancestors of destinations (what `mkdir(parents=True)` makes); a file neither listed nor a destination keeps its contents and no file appears outside the destinations; with separate trees exactly the failed files stay below the local root, each with its original contents; with nothing in the way exactly the raising moves fail, every other file arrives at its destination with its contents, every destination's folders exist, and a failed move's destination holds what it held before |
| Sync.SyncLocalToOneDrive | src/sync.py:14-41 | no OneDrive folder changes nothing and counts (0, 0); otherwise the counts add up to the files listed, failed files stay below the local root with their contents and their folders stay, moved files arrive under the OneDrive root with their contents, files neither listed nor a destination are untouched, no file appears outside the destinations, the only new folders are ancestors of destinations and with nothing in the way all of them exist and a failed move's destination is as it was, a folder still holding a file survives, and emptied folders go |
| Sync.SyncTwice | src/sync.py:14-41 | after a run with no failures, a second run moves nothing, fails nothing and changes no file |
| Fetch.Backoffs | src/data_fetch.py:48-56 | the i-th sleep waits 2^i seconds before jitter |
| Fetch.Pow2Increasing | src/data_fetch.py:56 | each base delay is strictly longer than the one before |
| Fetch.FirstAccepted | src/data_fetch.py:49-65 | the least attempt whose response has a non-empty price list, if any |
| Fetch.FetchCg | src/data_fetch.py:45-73 | returns the prices of the first accepted response and stops there; otherwise it returns `None` after `retries` requests; it never sends more than `retries`; it sleeps after every 429 and every failure but the last, with delays 1, 2, 4, ... |
| Fetch.EmptyPayloadIsFailure | src/data_fetch.py:58-61 | a payload without prices behaves exactly like a failed request |
| Fetch.FetchStockOne | src/data_fetch.py:27-43 | the fallback is tried exactly when the download is unusable; `None` comes back exactly when both are unusable; a result is never empty |
| Fetch.FetchStockOneTakesFirstUsable | src/data_fetch.py:27-43 | the result is the first usable reply in call order, and the fallback is called exactly when the download is not usable |
| Naming.ArtifactName | src/data_fetch.py:19-20 | the file name starts with the date and `_` and ends with `.` and the extension |
| Naming.ParseArtifactName | src/data_fetch.py:19-20 | reading an artifact name back gives its date, logical name and extension whenever the date has no `_` and the extension no `.`; whatever it finds reassembles to the name |
| Naming.SaveDf | src/data_fetch.py:16-20 | both files go to the same folder, `DATA_RAW` exactly when `where == "raw"`, named by date, logical name and extension |
| Naming.Prefixed | src/data_fetch.py:85 | every renamed column starts with the ticker and `_`, one per original column |
| Naming.PrefixedRoundTrip | src/data_fetch.py:85 | removing the ticker prefix gives back the original column labels |
| Naming.IsClosePrefixed | src/data_fetch.py:85-93 | a prefixed label ends in `_Close` exactly when the original label is `Close` or ends in `_Close` |
| Naming.FirstFieldOfPrefixed | src/data_fetch.py:85-95 | the text before the first `_` of a prefixed label is the ticker when the ticker holds no `_` |
| Naming.CloseColumnsAppend | src/data_fetch.py:90-95 | close selection distributes over the concatenation of the tickers' tables |
| Naming.CloseColumns | src/data_fetch.py:93-95 | close selection keeps at most as many columns as it is given, each named by text free of `_` |
| Naming.CloseOfPrefixed | src/data_fetch.py:85-95 | one ticker's prefixed columns select to its name once per close column |
| Naming.CloseColumnsAreTickers | src/data_fetch.py:79-95 | the close table's columns are the fetched tickers in order, when no ticker holds `_` and each table has one close column |
| Naming.StockTickersPlain | src/data_fetch.py:79 | none of the run's tickers holds `_` |

## Left out

- HTTP, yfinance and pandas are not modelled. Their outcomes are inputs: `Fetch.Response`, `Fetch.Reply`, and a table's column labels and row count.
- Console output (`print`) is not modelled. It has no effect on results.
- The random jitter in `fetch_cg`'s sleeps (`random.uniform(0, 0.5)`) is not modelled, nor the sleeping itself. Only the base delays are recorded.
- `Fetch.Point` holds the price as a real number, not a binary float. No arithmetic is done on it.
- The 0.2 s pause between stock tickers is not modelled. It has no effect on results.
- The KST date computation for `today` is not modelled. The date is a parameter.
- The writing of the files themselves is not modelled: `to_parquet`, `to_csv` and `save_png`. The chart code is commented out in the source.
- The fear-and-greed fetch block is not modelled. It is I/O with no logic of its own.
- The gathering of the crypto series into a dictionary by symbol is not modelled. It only calls `fetch_cg` once per coin and keeps the non-`None` results.
- `ensure_dirs` and the `mkdir` in `detect_onedrive_root` and `save_df` are not modelled as effects. Only the directory layout they produce is modelled.
- `PROJECT_ROOT` comes from `Path(__file__)`, so it is a parameter.
- `Path(val)` is modelled as a single-component path, not parsed. Path normalisation is not modelled: separators, `..`, case-insensitive Windows paths and symlinks.
- `Config.Unquote`: states only that the result has no single quote at either end. `Config.UnquoteDoubleThenSingle` and `Config.UnquoteKeepsInnerDoubleQuotes` give its exact result on quoted values.
- `Sync.SyncLocalToOneDrive`: takes `rglob("*")` as a snapshot taken before the first move. Python's `rglob` is lazy. The two agree when the local and OneDrive trees are separate, which is the case the exact postconditions assume.
- `Sync.SyncLocalToOneDrive`: an `rmdir` that fails for a reason other than a non-empty folder is not modelled, such as permissions or a locked folder. Neither is a move that fails halfway through.
- `Sync.MoveOne`: does not model a copy across devices that fails halfway. A failed move is all or nothing.
- `Sync.MoveOne`: a `mkdir` can fail for reasons the model does not represent, such as a permission error, a read-only folder or an invalid name. The model's `mkdir` fails only when a file stands where a parent folder is needed. The `raises` input covers the move itself, so in the model the parent folders are always added before a raising move.
- `Sync.SyncLocalToOneDrive`: exact results are stated only when the local and OneDrive trees are separate. They assume a well-formed filesystem with no folder or file standing in a destination's way. Outside those conditions only these are stated: the counts, the pruning, that files away from the moves are untouched, that new folders are destination ancestors, and that a folder still holding a file survives. That the result is again a well-formed filesystem is not stated.
- Yahoo's multi-level column labels are modelled as their string form (`str(c)`). The model does not track how pandas prints a tuple.

=== FILE: config.dfy ===
/** Storage-root resolution (`src/config.py`): an override from the
    environment or the project's `.env` dotfile, then a OneDrive folder
    recognised by its user name, then a local folder inside the project.
    The environment is a map from variable names to values, the dotfile is its
    list of lines (`None` when the file does not exist), and `Path.exists` is
    the predicate `pathExists` on the override string. */
module Config {
  import opened Wrappers
  import opened Text
  import opened Paths

  type Env = map<string, string>

  const StorageVar: string := "FINANCEPROJ_STORAGE"
  const OneDriveVar: string := "OneDrive"
  const OneDriveCommercialVar: string := "OneDriveCommercial"
  /** The user-folder name the OneDrive path must contain. */
  const UserMarker: string := "jooch"
  /** Where the project's data lives inside the OneDrive folder. */
  const ProjectSubpath: seq<string> := ["coding_Projects", "financeProj", "finance_dashboard_data"]
  const LocalStorageDir: string := "local_storage"

  /** `os.environ.get(name)` where only truthiness matters: a missing variable
      and an empty one are both read as "". */
  function EnvGet(env: Env, name: string): string {
    if name in env then env[name] else ""
  }

  /** One line of the dotfile after `line.strip()`: either skipped, or a key
      (stripped) and the raw text after the first `=`. */
  datatype Line = Skipped | Entry(key: string, value: string)

  function ParseLine(line: string): (r: Line)
    ensures r.Entry? <==> Strip(line) != [] && Strip(line)[0] != '#' && '=' in Strip(line)
    ensures r.Entry? ==>
      && Strip(line) == FirstField(Strip(line), '=') + ['='] + r.value
      && r.key == Strip(FirstField(Strip(line), '='))
  {
    var t := Strip(line);
    if t == [] || StartsWith(t, "#") then Skipped
    else
      match SplitFirst(t, '=')
      case None => Skipped
      case Some((k, v)) => Entry(Strip(k), v)
  }

  /** The dotfile's lines, each parsed on its own. */
  function ParseLines(lines: seq<string>): (r: seq<Line>)
    ensures |r| == |lines|
    ensures forall i :: 0 <= i < |lines| ==> r[i] == ParseLine(lines[i])
  {
    if |lines| == 0 then [] else [ParseLine(lines[0])] + ParseLines(lines[1..])
  }

  /** The parsed line assigns `key`. */
  predicate Defines(entry: Line, key: string) {
    entry.Entry? && entry.key == key
  }

  /** Index of the first line that assigns `key`; later lines are never
      looked at (the loop `break`s). */
  function FirstDefinition(entries: seq<Line>, key: string): (r: Option<nat>)
    ensures r.None? <==> forall i :: 0 <= i < |entries| ==> !Defines(entries[i], key)
    ensures r.Some? ==> r.value < |entries| && Defines(entries[r.value], key)
    ensures r.Some? ==> forall j :: 0 <= j < r.value ==> !Defines(entries[j], key)
  {
    if |entries| == 0 then None
    else if Defines(entries[0], key) then Some(0)
    else
      match FirstDefinition(entries[1..], key)
      case None => None
      case Some(i) => Some(i + 1)
  }

  /** `v.strip().strip('"').strip("'")`, in that order. */
  function Unquote(v: string): (r: string)
    ensures r == [] || (r[0] != '\'' && r[|r| - 1] != '\'')
  {
    var u := StripSet(Strip(v), {'"'});
    StripShape(u, {'\''});
    StripSet(u, {'\''})
  }

  /** The override value the dotfile gives, if any line assigns it. */
  function DotfileValue(lines: seq<string>): (r: Option<string>)
  {
    var entries := ParseLines(lines);
    match FirstDefinition(entries, StorageVar)
    case None => None
    case Some(i) => Some(Unquote(entries[i].value))
  }

  /** `load_env_override`: a non-empty environment value is used as it is;
      only when it is missing or empty is the dotfile read; the result is a
      path only when the chosen string is non-empty and exists. */
  function LoadEnvOverride(env: Env, dotfile: Option<seq<string>>, pathExists: string -> bool): (r: Option<Path>)
    ensures r.Some? ==> |r.value| == 1 && r.value[0] != "" && pathExists(r.value[0])
    ensures EnvGet(env, StorageVar) != "" ==>
      r == (if pathExists(env[StorageVar]) then Some(FromString(env[StorageVar])) else None)
    ensures EnvGet(env, StorageVar) == "" && dotfile.None? ==> r.None?
  {
    var fromEnv := EnvGet(env, StorageVar);
    var val :=
      if fromEnv != "" then fromEnv
      else match dotfile
        case None => ""
        case Some(lines) => DotfileValue(lines).GetOr("");
    if val != "" && pathExists(val) then Some(FromString(val)) else None
  }

  /** `os.environ.get("OneDrive") or os.environ.get("OneDriveCommercial")`. */
  function OneDriveValue(env: Env): (v: string)
    ensures EnvGet(env, OneDriveVar) != "" ==> v == env[OneDriveVar]
    ensures EnvGet(env, OneDriveVar) == "" ==> v == EnvGet(env, OneDriveCommercialVar)
  {
    var primary := EnvGet(env, OneDriveVar);
    if primary != "" then primary else EnvGet(env, OneDriveCommercialVar)
  }

  /** `detect_onedrive_root`: the project folder inside OneDrive, only when the
      OneDrive path names the expected user. */
  function DetectOneDriveRoot(env: Env): (r: Option<Path>)
    ensures r.Some? <==> Contains(OneDriveValue(env), UserMarker)
    ensures r.Some? ==> r.value == FromString(OneDriveValue(env)) + ProjectSubpath
    ensures r.Some? ==> Under(FromString(OneDriveValue(env)), r.value)
  {
    var od := OneDriveValue(env);
    if od != "" && Contains(od, UserMarker) then Some(FromString(od) + ProjectSubpath)
    else None
  }

  /** The directories every other component writes to. */
  datatype Layout = Layout(storageRoot: Path, dataRaw: Path, dataProcessed: Path, charts: Path)

  /** The fixed subfolders of a storage root. */
  function LayoutAt(root: Path): (l: Layout)
    ensures l.storageRoot == root
    ensures Under(root, l.dataRaw) && Under(root, l.dataProcessed) && Under(root, l.charts)
    ensures l.dataRaw != l.dataProcessed && l.dataRaw != l.charts && l.dataProcessed != l.charts
  {
    Layout(root, root + ["data", "raw"], root + ["data", "processed"], root + ["charts"])
  }

  /** Everything `src/config.py` computes at import time. */
  datatype Settings = Settings(envRoot: Option<Path>, oneDriveRoot: Option<Path>, localRoot: Path, layout: Layout)

  /** The storage root is the override if there is one, else the OneDrive
      folder if there is one, else `PROJECT_ROOT/local_storage`. */
  function Resolve(env: Env, dotfile: Option<seq<string>>, pathExists: string -> bool, projectRoot: Path): (s: Settings)
    ensures s.envRoot == LoadEnvOverride(env, dotfile, pathExists)
    ensures s.oneDriveRoot == DetectOneDriveRoot(env)
    ensures s.localRoot == projectRoot + [LocalStorageDir]
    ensures s.envRoot.Some? ==> s.layout.storageRoot == s.envRoot.value
    ensures s.envRoot.None? && s.oneDriveRoot.Some? ==> s.layout.storageRoot == s.oneDriveRoot.value
    ensures s.envRoot.None? && s.oneDriveRoot.None? ==> s.layout.storageRoot == s.localRoot
    ensures s.layout == LayoutAt(s.layout.storageRoot)
  {
    var envRoot := LoadEnvOverride(env, dotfile, pathExists);
    var oneDrive := DetectOneDriveRoot(env);
    var local := projectRoot + [LocalStorageDir];
    var root :=
      if envRoot.Some? then envRoot.value
      else if oneDrive.Some? then oneDrive.value
      else local;
    Settings(envRoot, oneDrive, local, LayoutAt(root))
  }

  /** A line whose stripped text is `k=v`, with `k` free of `=` and not a
      comment, is split on its first `=`: the value keeps any further `=`
      signs, and only the key is stripped again. */
  lemma ParseLineSplitsOnFirstEquals(line: string, k: string, v: string)
    requires Strip(line) == k + ['='] + v
    requires '=' !in k
    requires k == [] || k[0] != '#'
    ensures ParseLine(line) == Entry(Strip(k), v)
  {
    var t := Strip(line);
    SplitFirstInverse(k, v, '=');
    assert t[0] == (if k == [] then '=' else k[0]);
    assert !StartsWith(t, "#");
  }

  /** Blank lines, comment lines and lines without `=` are skipped. */
  lemma ParseLineSkips(line: string)
    requires Strip(line) == [] || Strip(line)[0] == '#' || '=' !in Strip(line)
    ensures ParseLine(line).Skipped?
  {
  }

  /** The first entry that assigns `key` is the one found, wherever it is. */
  lemma {:induction false} FirstDefinitionAt(entries: seq<Line>, key: string, i: nat)
    requires i < |entries| && Defines(entries[i], key)
    requires forall j :: 0 <= j < i ==> !Defines(entries[j], key)
    ensures FirstDefinition(entries, key) == Some(i)
  {
    if i > 0 {
      FirstDefinitionAt(entries[1..], key, i - 1);
    }
  }

  /** The first line assigning the variable decides, whatever follows and even
      when its value is empty. */
  lemma FirstDefinitionWins(before: seq<string>, line: string, after: seq<string>)
    requires forall i :: 0 <= i < |before| ==> !Defines(ParseLine(before[i]), StorageVar)
    requires Defines(ParseLine(line), StorageVar)
    ensures DotfileValue(before + [line] + after) == Some(Unquote(ParseLine(line).value))
  {
    var lines := before + [line] + after;
    var entries := ParseLines(lines);
    forall j | 0 <= j < |before|
      ensures !Defines(entries[j], StorageVar)
    {
      assert lines[j] == before[j];
    }
    assert lines[|before|] == line;
    FirstDefinitionAt(entries, StorageVar, |before|);
  }

  /** A text that neither starts nor ends in `cs` is left alone by
      stripping `cs`. */
  lemma StripUnchanged(s: string, cs: set<char>)
    requires s == [] || (s[0] !in cs && s[|s| - 1] !in cs)
    ensures StripSet(s, cs) == s
  {
    StripExact([], s, [], cs);
    assert [] + s + [] == s;
  }

  /** `m` has no whitespace and no quote at either end. */
  predicate Bare(m: string) {
    m != [] && m[0] !in Whitespace && m[|m| - 1] !in Whitespace
    && m[0] != '"' && m[|m| - 1] != '"' && m[0] != '\'' && m[|m| - 1] != '\''
  }

  /** Stripping `cs` from `m` wrapped in one `q` on each side gives `m`
      back when `q` is in `cs` and `m` neither starts nor ends in `cs`. */
  lemma StripPair(q: char, m: string, cs: set<char>)
    requires q in cs
    requires m == [] || (m[0] !in cs && m[|m| - 1] !in cs)
    ensures StripSet([q] + m + [q], cs) == m
  {
    StripExact([q], m, [q], cs);
  }

  /** Double quotes are removed before single quotes, so `"'m'"` unquotes
      to `m`... */
  lemma UnquoteDoubleThenSingle(m: string)
    requires Bare(m)
    ensures Unquote(['"'] + (['\''] + m + ['\'']) + ['"']) == m
  {
    var w := ['\''] + m + ['\''];
    var v := ['"'] + w + ['"'];
    StripUnchanged(v, Whitespace);
    StripPair('"', w, {'"'});
    StripPair('\'', m, {'\''});
  }

  /** ... while `'"m"'` keeps its double quotes: they are inside the single
      quotes when the double quotes are stripped. */
  lemma UnquoteKeepsInnerDoubleQuotes(m: string)
    requires Bare(m)
    ensures Unquote(['\''] + (['"'] + m + ['"']) + ['\'']) == ['"'] + m + ['"']
  {
    var w := ['"'] + m + ['"'];
    var v := ['\''] + w + ['\''];
    StripUnchanged(v, Whitespace);
    StripUnchanged(v, {'"'});
    StripPair('\'', w, {'\''});
  }

  /** With the environment variable missing or empty, the first dotfile
      line assigning it decides the override: its unquoted value, when
      non-empty and existing. */
  lemma DotfileDecides(env: Env, before: seq<string>, line: string, after: seq<string>, pathExists: string -> bool)
    requires EnvGet(env, StorageVar) == ""
    requires forall i :: 0 <= i < |before| ==> !Defines(ParseLine(before[i]), StorageVar)
    requires Defines(ParseLine(line), StorageVar)
    ensures var v := Unquote(ParseLine(line).value);
      LoadEnvOverride(env, Some(before + [line] + after), pathExists) ==
        (if v != "" && pathExists(v) then Some(FromString(v)) else None)
  {
    FirstDefinitionWins(before, line, after);
  }

  /** With the environment variable missing or empty and no dotfile line
      assigning it, there is no override. */
  lemma DotfileWithoutDefinition(env: Env, lines: seq<string>, pathExists: string -> bool)
    requires EnvGet(env, StorageVar) == ""
    requires forall i :: 0 <= i < |lines| ==> !Defines(ParseLine(lines[i]), StorageVar)
    ensures LoadEnvOverride(env, Some(lines), pathExists).None?
  {
    var entries := ParseLines(lines);
    assert forall i :: 0 <= i < |entries| ==> entries[i] == ParseLine(lines[i]);
  }

  /** A non-empty environment value makes the dotfile irrelevant. */
  lemma DotfileIgnoredWhenEnvSet(env: Env, d1: Option<seq<string>>, d2: Option<seq<string>>, pathExists: string -> bool)
    requires EnvGet(env, StorageVar) != ""
    ensures LoadEnvOverride(env, d1, pathExists) == LoadEnvOverride(env, d2, pathExists)
  {
  }

  /** `OneDrive` is preferred; `OneDriveCommercial` only matters when
      `OneDrive` is missing or empty. */
  lemma OneDrivePreferred(env: Env, commercial: string)
    requires EnvGet(env, OneDriveVar) != ""
    ensures DetectOneDriveRoot(env) == DetectOneDriveRoot(env[OneDriveCommercialVar := commercial])
  {
    var env' := env[OneDriveCommercialVar := commercial];
    assert EnvGet(env', OneDriveVar) == EnvGet(env, OneDriveVar);
  }

  /** With no override anywhere and no OneDrive variable, everything goes to
      the local folder inside the project. */
  lemma LocalFallback(env: Env, pathExists: string -> bool, projectRoot: Path)
    requires EnvGet(env, StorageVar) == ""
    requires EnvGet(env, OneDriveVar) == "" && EnvGet(env, OneDriveCommercialVar) == ""
    ensures Resolve(env, None, pathExists, projectRoot).layout == LayoutAt(projectRoot + [LocalStorageDir])
  {
    assert !Contains("", UserMarker);
  }

  /** An existing override beats a detected OneDrive folder. */
  lemma OverrideBeatsOneDrive(env: Env, dotfile: Option<seq<string>>, pathExists: string -> bool, projectRoot: Path)
    requires EnvGet(env, StorageVar) != "" && pathExists(env[StorageVar])
    ensures Resolve(env, dotfile, pathExists, projectRoot).layout.storageRoot == FromString(env[StorageVar])
  {
  }
}

=== FILE: fetch.dfy ===
/** The control flow of the two price fetchers in `src/data_fetch.py`. The
    HTTP session, yfinance and pandas are replaced by the outcomes they
    produce; `time.sleep` is replaced by the recorded base delay in whole
    seconds, without the random jitter. */
module Fetch {
  import opened Wrappers

  /** One `[timestamp, price]` row of the `prices` array. */
  datatype Point = Point(timestamp: int, price: real)

  /** What one request to the market-chart endpoint came to. `Failed`
      covers every exception the loop catches before the payload is looked
      at: the network, `raise_for_status`, JSON decoding, a row that is not
      a pair. `Payload` is the decoded body: `None` when it has no
      `"prices"` key. */
  datatype Response = TooMany | Failed | Payload(prices: Option<seq<Point>>)

  /** A response `fetch_cg` returns from: not a 429, decoded, with a
      non-empty `prices` list. */
  predicate Accepted(r: Response) {
    r.Payload? && r.prices.Some? && |r.prices.value| > 0
  }

  /** The outcome of `fetch_cg`: the price series or `None`, how many
      requests were sent, the base delay of every sleep in order, and the
      backoff when the loop ended. */
  datatype Run = Run(prices: Option<seq<Point>>, requests: nat, sleeps: seq<nat>, backoff: nat)

  function Pow2(n: nat): (p: nat)
    ensures p >= 1
  {
    if n == 0 then 1 else 2 * Pow2(n - 1)
  }

  /** The first `n` base delays of the backoff: 1, 2, 4, ... */
  function Backoffs(n: nat): (r: seq<nat>)
    ensures |r| == n
    ensures forall i :: 0 <= i < n ==> r[i] == Pow2(i)
  {
    if n == 0 then [] else Backoffs(n - 1) + [Pow2(n - 1)]
  }

  /** The first attempt among `from..retries` whose response is accepted. */
  function FirstAccepted(respond: nat -> Response, from: nat, retries: int): (r: Option<nat>)
    ensures r.Some? ==> from <= r.value <= retries && Accepted(respond(r.value))
    ensures r.Some? ==> forall j :: from <= j < r.value ==> !Accepted(respond(j))
    ensures r.None? ==> forall j :: from <= j <= retries ==> !Accepted(respond(j))
    decreases retries - from
  {
    if from > retries then None
    else if Accepted(respond(from)) then Some(from)
    else FirstAccepted(respond, from + 1, retries)
  }

  /** `fetch_cg(session, coin_id, days, retries)`, where `respond(k)` is
      what the `k`-th request (counting from 1) comes to. It returns the
      series of the first accepted response and sends no request after it;
      otherwise it sends `retries` requests and returns `None`. Every 429
      and every failure but the last sleeps for the current backoff, which
      starts at 1 and doubles after each sleep; a 429 on the last attempt
      still sleeps before the loop ends. */
  method FetchCg(respond: nat -> Response, retries: int) returns (run: Run)
    ensures run.requests <= if retries > 0 then retries else 0
    ensures run.prices.Some? ==> |run.prices.value| > 0
    ensures FirstAccepted(respond, 1, retries).Some? ==>
      var k := FirstAccepted(respond, 1, retries).value;
      run.prices == respond(k).prices && run.requests == k && |run.sleeps| == k - 1
    ensures FirstAccepted(respond, 1, retries).None? ==>
      && run.prices.None?
      && run.requests == (if retries > 0 then retries else 0)
      && |run.sleeps| == (if retries <= 0 then 0 else if respond(retries).TooMany? then retries else retries - 1)
    ensures run.sleeps == Backoffs(|run.sleeps|)
    ensures run.backoff == Pow2(|run.sleeps|)
  {
    var backoff: nat := 1;
    var sleeps: seq<nat> := [];
    var attempt: nat := 1;
    while attempt <= retries
      invariant 1 <= attempt <= (if retries > 0 then retries else 0) + 1
      invariant forall j :: 1 <= j < attempt ==> !Accepted(respond(j))
      invariant sleeps == Backoffs(attempt - 1)
      invariant attempt > 1 ==> respond(attempt - 1).TooMany? || attempt - 1 < retries
      invariant backoff == Pow2(attempt - 1)
      decreases retries - attempt
    {
      var r := respond(attempt);
      if r.TooMany? {
        sleeps := sleeps + [backoff];
        backoff := backoff * 2;
      } else if Accepted(r) {
        FirstAcceptedAt(respond, 1, retries, attempt);
        return Run(r.prices, attempt, sleeps, backoff);
      } else if attempt == retries {
        FirstAcceptedNone(respond, 1, retries);
        return Run(None, attempt, sleeps, backoff);
      } else {
        sleeps := sleeps + [backoff];
        backoff := backoff * 2;
      }
      attempt := attempt + 1;
    }
    FirstAcceptedNone(respond, 1, retries);
    return Run(None, attempt - 1, sleeps, backoff);
  }

  lemma FirstAcceptedAt(respond: nat -> Response, from: nat, retries: int, k: nat)
    requires from <= k <= retries && Accepted(respond(k))
    requires forall j :: from <= j < k ==> !Accepted(respond(j))
    ensures FirstAccepted(respond, from, retries) == Some(k)
  {
  }

  lemma FirstAcceptedNone(respond: nat -> Response, from: nat, retries: int)
    requires forall j :: from <= j <= retries ==> !Accepted(respond(j))
    ensures FirstAccepted(respond, from, retries).None?
  {
  }

  /** A decoded body without a `prices` key, or with an empty list, is
      handled exactly like a failed request: replacing it by `Failed`
      changes neither which attempt is accepted nor whether it was a 429. */
  lemma {:induction false} EmptyPayloadIsFailure(respond: nat -> Response, k: nat, from: nat, retries: int)
    requires respond(k) == Payload(None) || respond(k) == Payload(Some([]))
    ensures var failing := (j: nat) => if j == k then Failed else respond(j);
      && FirstAccepted(respond, from, retries) == FirstAccepted(failing, from, retries)
      && (forall j: nat :: respond(j).TooMany? <==> failing(j).TooMany?)
    decreases retries - from
  {
    if from <= retries {
      EmptyPayloadIsFailure(respond, k, from + 1, retries);
    }
  }

  /** The base delays only grow: each sleep waits twice as long as the one
      before it. */
  lemma {:induction false} Pow2Increasing(i: nat, j: nat)
    requires i < j
    ensures Pow2(i) < Pow2(j)
    decreases j
  {
    if i < j - 1 {
      Pow2Increasing(i, j - 1);
    }
  }

  /** A table as yfinance hands it back: its column labels and how many
      rows it has. */
  datatype Frame = Frame(columns: seq<string>, rows: nat)

  /** pandas' `df.empty`: no rows or no columns. */
  predicate Empty(f: Frame) {
    f.rows == 0 || |f.columns| == 0
  }

  /** What one yfinance call came to: an exception, or a returned value that
      may be `None`. */
  datatype Reply = Raised | Returned(frame: Option<Frame>)

  /** A reply `fetch_stock_one` keeps: a table that is not empty. */
  predicate Usable(r: Reply) {
    r.Returned? && r.frame.Some? && !Empty(r.frame.value)
  }

  /** The outcome of `fetch_stock_one`: the table or `None`, and whether the
      `history` fallback was called. */
  datatype StockFetch = StockFetch(frame: Option<Frame>, triedHistory: bool)

  /** `fetch_stock_one(ticker)`, given what `yf.download` and
      `Ticker.history` would come to: `download` is kept when usable, the
      fallback is called only otherwise, and `None` comes back only when
      both fail. */
  function FetchStockOne(download: Reply, history: Reply): (r: StockFetch)
    ensures r.triedHistory <==> !Usable(download)
    ensures r.frame.None? <==> !Usable(download) && !Usable(history)
    ensures r.frame.Some? ==> !Empty(r.frame.value)
    ensures r.frame.Some? ==> r.frame == (if Usable(download) then download.frame else history.frame)
  {
    if Usable(download) then StockFetch(download.frame, false)
    else if Usable(history) then StockFetch(history.frame, true)
    else StockFetch(None, true)
  }

  /** A reference for the fallback chain: the table of the first usable
      reply, in the order the calls are made. */
  function FirstUsable(replies: seq<Reply>): Option<Frame> {
    if replies == [] then None
    else if Usable(replies[0]) then replies[0].frame
    else FirstUsable(replies[1..])
  }

  /** `fetch_stock_one` returns the first usable of the two replies, and
      calls the fallback exactly when the first reply is not usable. */
  lemma FetchStockOneTakesFirstUsable(download: Reply, history: Reply)
    ensures FetchStockOne(download, history).frame == FirstUsable([download, history])
    ensures FetchStockOne(download, history).triedHistory == FirstUsable([download]).None?
  {
    assert [download, history][1..] == [history];
    assert [history][1..] == [] && [download][1..] == [];
    assert FirstUsable([history]) == (if Usable(history) then history.frame else None);
  }
}

=== FILE: naming.dfy ===
/** File names and column names chosen in `src/data_fetch.py`: where
    `save_df` writes a table, and how the stock columns are prefixed with
    their ticker and later cut back to it. */
module Naming {
  import opened Wrappers
  import opened Text
  import opened Paths
  import opened Config
  import opened Fetch

  /** `f"{today}_{name}.{ext}"`. */
  function ArtifactName(today: string, name: string, ext: string): (r: string)
    ensures |r| == |today| + |name| + |ext| + 2
    ensures StartsWith(r, today + "_") && EndsWith(r, "." + ext)
  {
    today + "_" + name + "." + ext
  }

  /** Reading an artifact name back: the date before the first `_`, the
      extension after the last `.`, the logical name in between. It undoes
      `ArtifactName` whenever the date has no `_` and the extension no `.`,
      even when the logical name holds either, and whatever it finds puts
      the name back together. */
  function ParseArtifactName(file: string): (r: Option<(string, string, string)>)
    ensures r.Some? ==> ArtifactName(r.value.0, r.value.1, r.value.2) == file
    ensures forall today, name, ext :: '_' !in today && '.' !in ext && file == ArtifactName(today, name, ext) ==>
      r == Some((today, name, ext))
  {
    ArtifactNameSplits(file);
    match SplitFirst(file, '_')
    case None => None
    case Some((today, rest)) =>
      match SplitLast(rest, '.')
      case None => None
      case Some((name, ext)) =>
        JoinSplits(file, today, rest, name, ext);
        Some((today, name, ext))
  }

  /** The parts two splits find put the name back together. */
  lemma JoinSplits(file: string, today: string, rest: string, name: string, ext: string)
    requires SplitFirst(file, '_') == Some((today, rest))
    requires SplitLast(rest, '.') == Some((name, ext))
    ensures ArtifactName(today, name, ext) == file
  {
    assert file == today + "_" + (name + "." + ext);
  }

  /** The two cuts land on the separators `ArtifactName` put in. */
  lemma ArtifactNameSplits(file: string)
    ensures forall today, name, ext :: '_' !in today && '.' !in ext && file == ArtifactName(today, name, ext) ==>
      SplitFirst(file, '_') == Some((today, name + "." + ext)) && SplitLast(name + "." + ext, '.') == Some((name, ext))
  {
    forall today, name, ext | '_' !in today && '.' !in ext && file == ArtifactName(today, name, ext)
      ensures SplitFirst(file, '_') == Some((today, name + "." + ext))
      ensures SplitLast(name + "." + ext, '.') == Some((name, ext))
    {
      assert file == today + ['_'] + (name + "." + ext);
      SplitFirstInverse(today, name + "." + ext, '_');
      assert name + "." + ext == name + ['.'] + ext;
      SplitLastInverse(name, ext, '.');
    }
  }

  /** `save_df(df, name, where)` with the date of the run: the folder is
      `DATA_RAW` exactly when `where == "raw"` and `DATA_PROCESSED` for any
      other value, and the same table is written twice there, as
      `{today}_{name}.parquet` and `{today}_{name}.csv`. */
  function SaveDf(layout: Layout, today: string, name: string, where: string): (r: seq<Path>)
    requires layout == LayoutAt(layout.storageRoot)
    ensures |r| == 2 && |r[0]| > 0 && |r[1]| > 0 && r[0] != r[1]
    ensures r[0][..|r[0]| - 1] == r[1][..|r[1]| - 1]
    ensures (r[0][..|r[0]| - 1] == layout.dataRaw) <==> where == "raw"
    ensures where != "raw" ==> r[0][..|r[0]| - 1] == layout.dataProcessed
    ensures r[0][|r[0]| - 1] == ArtifactName(today, name, "parquet")
    ensures r[1][|r[1]| - 1] == ArtifactName(today, name, "csv")
  {
    var folder := if where == "raw" then layout.dataRaw else layout.dataProcessed;
    var parquet := ArtifactName(today, name, "parquet");
    var csv := ArtifactName(today, name, "csv");
    assert parquet[|parquet| - 1] != csv[|csv| - 1];
    assert (folder + [parquet])[..|folder|] == folder == (folder + [csv])[..|folder|];
    assert layout.dataRaw != layout.dataProcessed;
    [folder + [parquet], folder + [csv]]
  }

  /** `[f"{t}_{str(c)}" for c in df_t.columns]`. */
  function Prefixed(t: string, cols: seq<string>): (r: seq<string>)
    ensures |r| == |cols|
    ensures forall i :: 0 <= i < |r| ==> StartsWith(r[i], t + "_")
  {
    if cols == [] then [] else [t + "_" + cols[0]] + Prefixed(t, cols[1..])
  }

  /** Dropping the ticker prefix again. */
  function Unprefixed(t: string, cols: seq<string>): (r: seq<string>)
    requires forall i :: 0 <= i < |cols| ==> StartsWith(cols[i], t + "_")
    ensures |r| == |cols|
  {
    if cols == [] then []
    else
      assert StartsWith(cols[0], t + "_");
      [cols[0][|t| + 1..]] + Unprefixed(t, cols[1..])
  }

  /** The prefix loses nothing: the original column labels come back. */
  lemma {:induction false} PrefixedRoundTrip(t: string, cols: seq<string>)
    ensures Unprefixed(t, Prefixed(t, cols)) == cols
  {
    if cols != [] {
      var p := Prefixed(t, cols);
      assert p[1..] == Prefixed(t, cols[1..]);
      assert (t + "_" + cols[0])[|t| + 1..] == cols[0];
      PrefixedRoundTrip(t, cols[1..]);
    }
  }

  /** `c.endswith("_Close")`. */
  predicate IsCloseColumn(c: string) {
    EndsWith(c, "_Close")
  }

  /** The close-price selection: keep the columns ending in `_Close`, in
      order, and name each by the text before its first `_`. */
  function CloseColumns(cols: seq<string>): (r: seq<string>)
    ensures |r| <= |cols|
    ensures forall i :: 0 <= i < |r| ==> '_' !in r[i]
  {
    if cols == [] then []
    else (if IsCloseColumn(cols[0]) then [FirstField(cols[0], '_')] else []) + CloseColumns(cols[1..])
  }

  /** The selection works column by column, so it distributes over the
      concatenation of the tickers' tables. */
  lemma {:induction false} CloseColumnsAppend(a: seq<string>, b: seq<string>)
    ensures CloseColumns(a + b) == CloseColumns(a) + CloseColumns(b)
  {
    if a != [] {
      assert (a + b)[1..] == a[1..] + b;
      CloseColumnsAppend(a[1..], b);
    } else {
      assert a + b == b;
    }
  }

  /** The text before the first `_` of a prefixed label is the ticker's own
      text before its first `_`: the ticker itself when it has no `_`. */
  lemma FirstFieldOfPrefixed(t: string, c: string)
    ensures FirstField(t + "_" + c, '_') == FirstField(t, '_')
    ensures '_' !in t ==> FirstField(t + "_" + c, '_') == t
  {
    var s := t + "_" + c;
    assert s == t + ['_'] + c;
    if '_' in t {
      var i := IndexOf(t, '_');
      assert s[..i] == t[..i];
      assert IndexOf(s, '_') == i by {
        IndexOfUnique(s, '_', i);
      }
    } else {
      SplitFirstInverse(t, c, '_');
    }
  }

  lemma IndexOfUnique(s: string, c: char, i: nat)
    requires i < |s| && s[i] == c && c !in s[..i]
    ensures c in s && IndexOf(s, c) == i
  {
    var k := IndexOf(s, c);
    assert forall j :: 0 <= j < i ==> s[..i][j] == s[j];
    assert forall j :: 0 <= j < k ==> s[..k][j] == s[j];
  }

  /** A prefixed label ends in `_Close` exactly when the original label is
      `Close` or itself ends in `_Close`: the ticker never decides it. */
  lemma IsClosePrefixed(t: string, c: string)
    ensures IsCloseColumn(t + "_" + c) <==> c == "Close" || IsCloseColumn(c)
  {
    var s := t + "_" + c;
    var close := "_Close";
    assert s == t + ['_'] + c;
    if |c| >= 6 {
      assert s[|s| - 6..] == c[|c| - 6..];
    } else if |c| == 5 {
      assert s[|s| - 6..] == ['_'] + c;
      assert close == ['_'] + "Close";
      if ['_'] + c == close {
        assert c == close[1..];
      }
    } else if |s| >= 6 {
      assert s[|s| - 6..][5 - |c|] == '_';
      assert close[5 - |c|] != '_';
    }
  }

  /** How many of the labels `close_cols` keeps for one ticker. */
  function CloseCount(cols: seq<string>): nat {
    if cols == [] then 0 else (if cols[0] == "Close" || IsCloseColumn(cols[0]) then 1 else 0) + CloseCount(cols[1..])
  }

  /** `n` copies of `x`. */
  function Repeat(x: string, n: nat): (r: seq<string>)
    ensures |r| == n && forall i :: 0 <= i < n ==> r[i] == x
  {
    if n == 0 then [] else [x] + Repeat(x, n - 1)
  }

  /** One ticker's columns, prefixed and then selected, come out as the
      ticker's name once per close column. */
  lemma {:induction false} CloseOfPrefixed(t: string, cols: seq<string>)
    ensures CloseColumns(Prefixed(t, cols)) == Repeat(FirstField(t, '_'), CloseCount(cols))
  {
    if cols != [] {
      var p := Prefixed(t, cols);
      assert p[0] == t + "_" + cols[0] && p[1..] == Prefixed(t, cols[1..]);
      IsClosePrefixed(t, cols[0]);
      FirstFieldOfPrefixed(t, cols[0]);
      CloseOfPrefixed(t, cols[1..]);
    }
  }

  /** The columns of `stocks_raw`: each ticker that returned a table
      contributes its prefixed columns, in ticker order; tickers that
      returned `None` are skipped. */
  function RawColumns(tickers: seq<string>, fetch: string -> Option<Frame>): seq<string> {
    if tickers == [] then []
    else
      (match fetch(tickers[0])
       case None => []
       case Some(f) => Prefixed(tickers[0], f.columns))
      + RawColumns(tickers[1..], fetch)
  }

  /** The tickers that returned a table, in order. */
  function Fetched(tickers: seq<string>, fetch: string -> Option<Frame>): (r: seq<string>)
    ensures forall i :: 0 <= i < |r| ==> r[i] in tickers && fetch(r[i]).Some?
  {
    if tickers == [] then []
    else (if fetch(tickers[0]).Some? then [tickers[0]] else []) + Fetched(tickers[1..], fetch)
  }

  /** The columns of `stocks_close` are exactly the tickers that returned a
      table, in order, when no ticker holds `_` and every returned table
      has one close column. */
  lemma {:induction false} CloseColumnsAreTickers(tickers: seq<string>, fetch: string -> Option<Frame>)
    requires forall i :: 0 <= i < |tickers| ==> '_' !in tickers[i]
    requires forall i :: 0 <= i < |tickers| && fetch(tickers[i]).Some? ==>
      CloseCount(fetch(tickers[i]).value.columns) == 1
    ensures CloseColumns(RawColumns(tickers, fetch)) == Fetched(tickers, fetch)
  {
    if tickers != [] {
      var t := tickers[0];
      var head := match fetch(t) case None => [] case Some(f) => Prefixed(t, f.columns);
      CloseColumnsAppend(head, RawColumns(tickers[1..], fetch));
      if fetch(t).Some? {
        CloseOfPrefixed(t, fetch(t).value.columns);
        FirstFieldOfPrefixed(t, "");
        assert FirstField(t, '_') == t;
      }
      CloseColumnsAreTickers(tickers[1..], fetch);
    }
  }

  /** The tickers of the run: the seven large technology stocks and gold
      futures. */
  const StockTickers: seq<string> := ["PLTR", "TSLA", "NVDA", "GOOGL", "MSFT", "META", "AMZN", "GC=F"]

  /** None of the run's tickers holds `_`, so each one's close column is
      named by the ticker itself. */
  lemma StockTickersPlain()
    ensures forall i :: 0 <= i < |StockTickers| ==> '_' !in StockTickers[i]
  {
  }
}

=== FILE: order.dfy ===
/** Python's ordering of strings and of paths. Strings compare character by
    character on code points; `pathlib` paths compare by their list of parts,
    each part compared as a string. Both are the lexicographic extension of an
    order on elements, defined once here as `Lt`. */
module Order {

  /** Lexicographic "less than" over sequences, given a "less than" on
      elements: the first differing position decides, and a proper prefix
      comes first. */
  predicate Lt<T(==)>(a: seq<T>, b: seq<T>, less: (T, T) -> bool)
    decreases |a|
  {
    if |a| == 0 then |b| > 0
    else |b| > 0 && (less(a[0], b[0]) || (a[0] == b[0] && Lt(a[1..], b[1..], less)))
  }

  /** No element is less than itself: what `sorted` needs so that the
      largest element of a set is never beaten by itself. */
  ghost predicate Irreflexive<T(!new)>(less: (T, T) -> bool) {
    forall x :: !less(x, x)
  }

  /** Less-than chains: what `sorted` needs so that the first element of a
      reverse sort is larger than every other, not just its neighbour. */
  ghost predicate Transitive<T(!new)>(less: (T, T) -> bool) {
    forall x, y, z :: less(x, y) && less(y, z) ==> less(x, z)
  }

  /** Any two distinct elements are ordered: what `sorted` needs so that
      the largest element of a set is unique. */
  ghost predicate Connected<T(!new)>(less: (T, T) -> bool) {
    forall x, y :: x != y ==> less(x, y) || less(y, x)
  }

  /** The properties `sorted` relies on: a strict total order. */
  ghost predicate StrictTotal<T(!new)>(less: (T, T) -> bool) {
    Irreflexive(less) && Transitive(less) && Connected(less)
  }

  function CharLess(x: char, y: char): bool {
    x < y
  }

  /** Python's `<` on `str`. */
  predicate StrLt(a: string, b: string) {
    Lt(a, b, CharLess)
  }

  /** Python's `<` on `pathlib` paths: by the list of parts. */
  predicate PathLt(a: seq<string>, b: seq<string>) {
    Lt(a, b, StrLt)
  }

  /** A proper prefix sorts before every extension of it, whatever the order
      on elements: an ancestor directory sorts before its descendants. */
  lemma {:induction false} PrefixFirst<T>(a: seq<T>, b: seq<T>, less: (T, T) -> bool)
    requires |a| < |b| && b[..|a|] == a
    ensures Lt(a, b, less)
  {
    if |a| > 0 {
      assert b[1..][..|a| - 1] == a[1..];
      PrefixFirst(a[1..], b[1..], less);
    }
  }

  lemma {:induction false} LtIrreflexive<T(!new)>(a: seq<T>, less: (T, T) -> bool)
    requires Irreflexive(less)
    ensures !Lt(a, a, less)
  {
    if |a| > 0 {
      LtIrreflexive(a[1..], less);
    }
  }

  lemma {:induction false} LtTransitive<T(!new)>(a: seq<T>, b: seq<T>, c: seq<T>, less: (T, T) -> bool)
    requires Irreflexive(less) && Transitive(less)
    requires Lt(a, b, less) && Lt(b, c, less)
    ensures Lt(a, c, less)
    decreases |a|
  {
    if |a| > 0 {
      if a[0] == b[0] && b[0] == c[0] {
        LtTransitive(a[1..], b[1..], c[1..], less);
      }
    }
  }

  lemma {:induction false} LtConnected<T(!new)>(a: seq<T>, b: seq<T>, less: (T, T) -> bool)
    requires Connected(less)
    requires a != b
    ensures Lt(a, b, less) || Lt(b, a, less)
    decreases |a|
  {
    if |a| > 0 && |b| > 0 && a[0] == b[0] {
      assert a == [a[0]] + a[1..] && b == [b[0]] + b[1..];
      LtConnected(a[1..], b[1..], less);
    }
  }

  /** The lexicographic extension of a strict total order is one. */
  lemma LexStrictTotal<T(!new)>(less: (T, T) -> bool)
    requires StrictTotal(less)
    ensures forall a: seq<T> :: !Lt(a, a, less)
    ensures forall a: seq<T>, b, c :: Lt(a, b, less) && Lt(b, c, less) ==> Lt(a, c, less)
    ensures forall a: seq<T>, b :: a != b ==> Lt(a, b, less) || Lt(b, a, less)
  {
    forall a: seq<T> ensures !Lt(a, a, less) {
      LtIrreflexive(a, less);
    }
    forall a: seq<T>, b, c | Lt(a, b, less) && Lt(b, c, less) ensures Lt(a, c, less) {
      LtTransitive(a, b, c, less);
    }
    forall a: seq<T>, b | a != b ensures Lt(a, b, less) || Lt(b, a, less) {
      LtConnected(a, b, less);
    }
  }

  lemma PathLtStrictTotal()
    ensures StrictTotal(StrLt)
    ensures StrictTotal(PathLt)
  {
    assert StrictTotal(CharLess);
    LexStrictTotal(CharLess);
    LexStrictTotal(StrLt);
  }

  /** Every finite non-empty set of paths has a greatest element, the first
      one `sorted(..., reverse=True)` yields. */
  lemma {:induction false} MaxExists(s: set<seq<string>>)
    requires s != {}
    ensures exists m :: m in s && forall x :: x in s ==> !PathLt(m, x)
    decreases |s|
  {
    PathLtStrictTotal();
    var x :| x in s;
    var rest := s - {x};
    if rest == {} {
      assert s == {x};
      assert forall y :: y in s ==> !PathLt(x, y);
    } else {
      MaxExists(rest);
      var m :| m in rest && forall y :: y in rest ==> !PathLt(m, y);
      if PathLt(m, x) {
        assert forall y :: y in s ==> !PathLt(x, y);
      } else {
        assert forall y :: y in s ==> !PathLt(m, y);
      }
    }
  }
}

=== FILE: paths.dfy ===
/** Filesystem paths as sequences of parts, the way `pathlib` sees them. */
module Paths {

  /** A path as its list of parts; `/` appends parts. */
  type Path = seq<string>

  /** `Path(s)` for a string taken from the environment or the dotfile: the
      string is kept whole as one part. */
  function FromString(s: string): Path {
    [s]
  }

  /** `a` is `b` or one of its ancestors. */
  predicate IsPrefix(a: Path, b: Path) {
    |a| <= |b| && b[..|a|] == a
  }

  /** `p` lies strictly beneath `root` (what `root.rglob("*")` can yield). */
  predicate Under(root: Path, p: Path) {
    |root| < |p| && p[..|root|] == root
  }

  /** Neither tree contains the other. */
  predicate Separate(a: Path, b: Path) {
    !IsPrefix(a, b) && !IsPrefix(b, a)
  }

  /** `to / p.relative_to(from)`: the same relative path under another root. */
  function Rebase(p: Path, from: Path, to: Path): (q: Path)
    requires Under(from, p)
    ensures Under(to, q)
    ensures q[|to|..] == p[|from|..]
  {
    to + p[|from|..]
  }

  /** Every proper ancestor of `p` except the empty path: the directories
      `p.parent.mkdir(parents=True)` makes sure exist. */
  function Ancestors(p: Path): set<Path> {
    set k | 1 <= k < |p| :: p[..k]
  }

  /** Moving a relative path to another root and back is the identity. */
  lemma RebaseRoundTrip(p: Path, from: Path, to: Path)
    requires Under(from, p)
    ensures Rebase(Rebase(p, from, to), to, from) == p
  {
    var q := Rebase(p, from, to);
    assert q[|to|..] == p[|from|..];
    assert p == p[..|from|] + p[|from|..];
  }

  /** Distinct files land on distinct destinations. */
  lemma RebaseInjective(p: Path, p': Path, from: Path, to: Path)
    requires Under(from, p) && Under(from, p')
    requires Rebase(p, from, to) == Rebase(p', from, to)
    ensures p == p'
  {
    RebaseRoundTrip(p, from, to);
    RebaseRoundTrip(p', from, to);
  }

  /** `a` is a proper ancestor of `p` other than the empty path. */
  predicate IsAncestor(a: Path, p: Path) {
    1 <= |a| < |p| && p[..|a|] == a
  }

  lemma AncestorsMember(a: Path, p: Path)
    ensures a in Ancestors(p) <==> IsAncestor(a, p)
  {
    if IsAncestor(a, p) {
      assert a == p[..|a|];
    }
  }

  /** Two ancestors of one path are ancestors of each other. */
  lemma PrefixesComparable(a: Path, b: Path, t: Path)
    requires IsPrefix(a, t) && IsPrefix(b, t)
    ensures IsPrefix(a, b) || IsPrefix(b, a)
  {
    if |a| <= |b| {
      assert b[..|a|] == t[..|b|][..|a|];
    } else {
      assert a[..|b|] == t[..|a|][..|b|];
    }
  }

  /** Nothing lies in both of two separate trees. */
  lemma SeparateTrees(a: Path, b: Path, p: Path)
    requires Separate(a, b) && IsPrefix(b, p)
    ensures !IsPrefix(a, p)
  {
    if IsPrefix(a, p) {
      PrefixesComparable(a, b, p);
    }
  }

  /** Rebasing keeps the ancestor relation, in both directions. */
  lemma RebaseAncestor(s: Path, p: Path, from: Path, to: Path)
    requires Under(from, s) && Under(from, p)
    ensures IsAncestor(Rebase(s, from, to), Rebase(p, from, to)) <==> IsAncestor(s, p)
  {
    var rs, rp := Rebase(s, from, to), Rebase(p, from, to);
    assert s == from + s[|from|..] && p == from + p[|from|..];
    if |s| < |p| {
      assert rp[..|rs|] == to + p[|from|..][..|s| - |from|];
      assert p[..|s|] == from + p[|from|..][..|s| - |from|];
    }
  }
}

=== FILE: sync.dfy ===
/** Moving the local storage tree into the OneDrive tree (`src/sync.py`).
    The filesystem is a map from file paths to contents plus the set of
    directory paths; the files whose move raises are an input set. */
module Sync {
  import opened Wrappers
  import opened Paths
  import opened Order

  newtype byte = x: int | 0 <= x < 256

  type Bytes = seq<byte>

  datatype FileSystem = FileSystem(files: map<Path, Bytes>, dirs: set<Path>)

  /** `p.exists()`. */
  predicate Exists(fs: FileSystem, p: Path) {
    p in fs.files || p in fs.dirs
  }

  /** Some file lies below `d`. */
  ghost predicate HasFile(files: map<Path, Bytes>, d: Path) {
    exists f :: f in files && Under(d, f)
  }

  /** `d.rmdir()` fails: something is still inside `d`. */
  predicate Occupied(fs: FileSystem, d: Path) {
    (exists p :: p in fs.files && Under(d, p)) || (exists p :: p in fs.dirs && Under(d, p))
  }

  /** What `root.rglob("*")` yields: every entry below `root`, nothing when
      `root` is not a directory. */
  function Entries(fs: FileSystem, root: Path): set<Path> {
    if root in fs.dirs then set p | p in fs.files.Keys + fs.dirs && Under(root, p) else {}
  }

  /** The first path `sorted(..., reverse=True)` yields. */
  function Greatest(s: set<Path>): (m: Path)
    requires s != {}
    ensures m in s
    ensures forall x :: x in s && x != m ==> PathLt(x, m)
  {
    MaxExists(s);
    PathLtStrictTotal();
    var m :| m in s && forall x :: x in s ==> !PathLt(m, x);
    m
  }

  /** The pruning loop over the paths still `pending`, largest first: each
      one that is a directory is removed when nothing is inside it, and
      every other failure of `rmdir` is ignored. */
  function PruneFrom(fs: FileSystem, pending: set<Path>): (r: FileSystem)
    ensures r.files == fs.files
    ensures r.dirs <= fs.dirs
    ensures fs.dirs - pending <= r.dirs
    decreases |pending|
  {
    if pending == {} then fs
    else
      var d := Greatest(pending);
      var next := if d in fs.dirs && !Occupied(fs, d) then fs.(dirs := fs.dirs - {d}) else fs;
      PruneFrom(next, pending - {d})
  }

  /** Pruning so far: files untouched, a directory already visited is kept
      exactly when a file lies below it, any other directory is as it was,
      and every visited path sorts after every pending one. */
  ghost predicate PruneInv(fs0: FileSystem, fs: FileSystem, all: set<Path>, pending: set<Path>) {
    && pending <= all
    && fs.files == fs0.files
    && (forall d :: d in fs.dirs ==> d in fs0.dirs)
    && (forall d :: d in fs0.dirs && d !in all - pending ==> d in fs.dirs)
    && (forall d :: d in all - pending ==> (d in fs.dirs <==> d in fs0.dirs && HasFile(fs0.files, d)))
    && (forall x, y :: x in all - pending && y in pending ==> PathLt(y, x))
    && (forall d, p :: d in all && Exists(fs0, p) && Under(d, p) ==> p in all)
  }

  lemma UnderTransitive(a: Path, b: Path, c: Path)
    requires Under(a, b) && Under(b, c)
    ensures Under(a, c)
  {
    assert c[..|a|] == c[..|b|][..|a|];
  }

  /** When the largest pending path is a directory, everything below it has
      been visited already, so it is occupied exactly when a file lies below
      it. */
  lemma OccupiedIffHasFile(fs0: FileSystem, fs: FileSystem, all: set<Path>, pending: set<Path>, d: Path)
    requires PruneInv(fs0, fs, all, pending)
    requires d in pending && forall x :: x in pending && x != d ==> PathLt(x, d)
    ensures Occupied(fs, d) <==> HasFile(fs0.files, d)
  {
    PathLtStrictTotal();
    if Occupied(fs, d) && !(exists p :: p in fs.files && Under(d, p)) {
      var q :| q in fs.dirs && Under(d, q);
      assert Exists(fs0, q);
      assert q in all;
      PrefixFirst(d, q, StrLt);
      if q in pending {
        LtTransitive(q, d, q, StrLt);
        LtIrreflexive(q, StrLt);
      }
      var f :| f in fs0.files && Under(q, f);
      UnderTransitive(d, q, f);
    }
  }

  lemma {:induction false} PruneFromSpec(fs0: FileSystem, fs: FileSystem, all: set<Path>, pending: set<Path>)
    requires PruneInv(fs0, fs, all, pending)
    ensures PruneFrom(fs, pending).files == fs0.files
    ensures forall d :: d in PruneFrom(fs, pending).dirs <==>
      d in fs0.dirs && (d in all ==> HasFile(fs0.files, d))
    decreases |pending|
  {
    if pending != {} {
      var d := Greatest(pending);
      var next := if d in fs.dirs && !Occupied(fs, d) then fs.(dirs := fs.dirs - {d}) else fs;
      OccupiedIffHasFile(fs0, fs, all, pending, d);
      PathLtStrictTotal();
      assert PruneInv(fs0, next, all, pending - {d});
      PruneFromSpec(fs0, next, all, pending - {d});
    }
  }

  /** The pruning step of `sync_local_to_onedrive`: below `root`, exactly the
      directories that still hold a file somewhere beneath them survive;
      nothing else changes, and `root` itself is never removed. */
  function Prune(fs: FileSystem, root: Path): (r: FileSystem)
    ensures r.files == fs.files
    ensures forall d :: d in r.dirs <==>
      d in fs.dirs && (root in fs.dirs && Under(root, d) ==> HasFile(fs.files, d))
  {
    var all := Entries(fs, root);
    assert PruneInv(fs, fs, all, all) by {
      forall d, p | d in all && Exists(fs, p) && Under(d, p) ensures p in all {
        UnderTransitive(root, d, p);
      }
    }
    PruneFromSpec(fs, fs, all, all);
    PruneFrom(fs, all)
  }

  /** The files `_iter_files(root)` yields: every file below `root`, none
      when `root` does not exist. */
  function IterFiles(fs: FileSystem, root: Path): (r: set<Path>)
    ensures forall p :: p in r <==> root in fs.dirs && p in fs.files && Under(root, p)
  {
    if root in fs.dirs then FilesBelow(fs.files, root) else {}
  }

  function FilesBelow(files: map<Path, Bytes>, root: Path): set<Path> {
    set p | p in files && Under(root, p)
  }

  /** A filesystem a real disk can hold: no path is both a file and a
      directory, and every ancestor of an entry is a directory. */
  ghost predicate WellFormed(fs: FileSystem) {
    && (forall p :: p in fs.files ==> p !in fs.dirs)
    && (forall a, p :: p in fs.files && IsAncestor(a, p) ==> a in fs.dirs)
  }

  /** Nothing in the way of the moves: no destination is already a
      directory and no file sits where a destination needs a directory. */
  ghost predicate Clear(fs: FileSystem, local: Path, oneDrive: Path) {
    forall s :: s in IterFiles(fs, local) ==>
      && Rebase(s, local, oneDrive) !in fs.dirs
      && (forall a :: a in fs.files ==> !IsAncestor(a, Rebase(s, local, oneDrive)))
  }

  /** One iteration of the move loop: `dst.parent.mkdir(parents=True,
      exist_ok=True)` then `shutil.move(str(src), str(dst))`, with `raises`
      telling whether the move itself throws. `mkdir` throws when a file
      stands where a parent directory is needed; `shutil.move` moves into
      `dst` when `dst` is a directory and throws when that name is taken
      there, and otherwise replaces whatever file is at `dst`. The result is
      the new filesystem and whether the move happened. */
  function MoveOne(fs: FileSystem, src: Path, dst: Path, raises: bool): (r: (FileSystem, bool))
    requires src in fs.files && |src| > 0
    ensures r.1 <==> !raises && Ancestors(dst) !! fs.files.Keys
                     && !(dst in fs.dirs && Exists(fs, dst + [src[|src| - 1]]))
    ensures r.0.dirs == if Ancestors(dst) !! fs.files.Keys then fs.dirs + Ancestors(dst) else fs.dirs
    ensures !r.1 ==> r.0.files == fs.files
    ensures r.1 && dst !in fs.dirs ==> r.0.files == (fs.files - {src})[dst := fs.files[src]]
    ensures r.1 && dst in fs.dirs ==>
      r.0.files == (fs.files - {src})[dst + [src[|src| - 1]] := fs.files[src]]
  {
    var parents := Ancestors(dst);
    if parents * fs.files.Keys != {} then (fs, false)
    else
      var made := fs.(dirs := fs.dirs + parents);
      var target := dst + [src[|src| - 1]];
      assert forall q :: q in parents ==> |q| < |dst|;
      assert dst !in parents && target !in parents;
      assert parents !! fs.files.Keys by {
        forall q | q in parents ensures q !in fs.files.Keys {
          assert q !in parents * fs.files.Keys;
        }
      }
      if raises then (made, false)
      else if dst in made.dirs then
        if Exists(made, target) then (made, false)
        else (made.(files := (made.files - {src})[target := fs.files[src]]), true)
      else (made.(files := (made.files - {src})[dst := fs.files[src]]), true)
  }

  /** Every path a move of a listed file may write: its destination, or the
      same name inside the destination when that is a folder. */
  function Targets(fs: FileSystem, local: Path, od: Path): set<Path> {
    (set s | s in IterFiles(fs, local) && Under(local, s) :: Rebase(s, local, od))
    + (set s | s in IterFiles(fs, local) && Under(local, s) :: Rebase(s, local, od) + [s[|s| - 1]])
  }

  /** Every folder the `mkdir` calls of the move loop may create: the
      ancestors of the listed files' destinations. */
  function MadeDirs(fs: FileSystem, local: Path, od: Path): set<Path> {
    set s, a | s in IterFiles(fs, local) && Under(local, s) && a in Ancestors(Rebase(s, local, od)) :: a
  }

  /** The move loop touches nothing else: a file that is neither listed nor
      a possible target keeps its contents, no file appears outside the
      targets, and no folder appears outside the destinations' ancestors. */
  ghost predicate FrameInv(fs: FileSystem, local: Path, od: Path, cur: FileSystem) {
    && (forall p :: p in fs.files && p !in IterFiles(fs, local) && p !in Targets(fs, local, od) ==>
          p in cur.files && cur.files[p] == fs.files[p])
    && cur.files.Keys <= fs.files.Keys + Targets(fs, local, od)
    && cur.dirs <= fs.dirs + MadeDirs(fs, local, od)
  }

  lemma MoveStepFrame(fs: FileSystem, local: Path, od: Path, raises: set<Path>, cur: FileSystem, src: Path)
    requires FrameInv(fs, local, od, cur)
    requires src in IterFiles(fs, local) && src in cur.files
    ensures FrameInv(fs, local, od, MoveOne(cur, src, Rebase(src, local, od), src in raises).0)
  {
    var dst := Rebase(src, local, od);
    var step := MoveOne(cur, src, dst, src in raises);
    assert dst in Targets(fs, local, od);
    assert dst + [src[|src| - 1]] in Targets(fs, local, od);
    assert step.0.files.Keys <= cur.files.Keys + {dst, dst + [src[|src| - 1]]};
    forall p | p in fs.files && p !in IterFiles(fs, local) && p !in Targets(fs, local, od)
      ensures p in step.0.files && step.0.files[p] == fs.files[p]
    {
      assert p != src && p != dst && p != dst + [src[|src| - 1]];
    }
    assert Ancestors(dst) <= MadeDirs(fs, local, od);
  }

  /** What the move loop keeps, whatever the two trees are: every file
      `_iter_files` yields is either still to do or done, each done file is
      counted once, and directories are only ever added. */
  ghost predicate MoveInv(fs: FileSystem, local: Path, cur: FileSystem, todo: set<Path>, done: set<Path>,
                          failedSet: set<Path>, moved: nat, failed: nat)
  {
    && todo + done == IterFiles(fs, local) && todo !! done
    && todo <= cur.files.Keys
    && moved + failed == |done|
    && fs.dirs <= cur.dirs
    && (local !in fs.dirs || done == {} ==> cur == fs)
    && failedSet <= done && |failedSet| == failed
  }

  /** What the move loop keeps when the two trees are separate: the files
      left below `local` are those still to do and those that failed, and a
      file still to do or failed has its original contents. */
  ghost predicate SeparateInv(fs: FileSystem, local: Path, raises: set<Path>, cur: FileSystem,
                              todo: set<Path>, done: set<Path>, failedSet: set<Path>)
  {
    && done * raises <= failedSet
    && (local in fs.dirs ==> FilesBelow(cur.files, local) == todo + failedSet)
    && (forall s :: s in todo ==> Under(local, s) && s in fs.files && s in cur.files && cur.files[s] == fs.files[s])
    && (forall s :: s in failedSet ==> Under(local, s) && s in fs.files && s in cur.files && cur.files[s] == fs.files[s])
  }

  /** The file at `p`, or its absence, is as it was. */
  ghost predicate Untouched(before: map<Path, Bytes>, after: map<Path, Bytes>, p: Path) {
    (p in after <==> p in before) && (p in before ==> after[p] == before[p])
  }

  /** What the move loop keeps when nothing is in the way: exactly the
      raising moves failed, every other done file sits at its destination
      with its contents, every done file's destination folders exist, the
      destinations of the files still to do and of the failed ones are as
      they were, and the remaining destinations are still clear. */
  ghost predicate ClearInv(fs: FileSystem, local: Path, od: Path, raises: set<Path>, cur: FileSystem,
                           todo: set<Path>, done: set<Path>, failedSet: set<Path>)
  {
    && failedSet == done * raises
    && (forall s :: s in done && s !in raises ==>
          && Under(local, s) && s in fs.files
          && Rebase(s, local, od) in cur.files && cur.files[Rebase(s, local, od)] == fs.files[s])
    && (forall s :: s in done ==> Under(local, s) && Ancestors(Rebase(s, local, od)) <= cur.dirs)
    && (forall s :: s in todo || (s in done && s in raises) ==>
          Under(local, s) && Untouched(fs.files, cur.files, Rebase(s, local, od)))
    && (forall s :: s in todo ==>
          && Under(local, s)
          && Rebase(s, local, od) !in cur.dirs
          && (forall a :: a in cur.files ==> !IsAncestor(a, Rebase(s, local, od))))
  }

  /** The file a successful move writes lies below `od`, never below a
      separate `local`. */
  lemma TargetOutside(local: Path, od: Path, src: Path, t: Path)
    requires Under(local, src) && Separate(local, od)
    requires t == Rebase(src, local, od) || t == Rebase(src, local, od) + [src[|src| - 1]]
    ensures Under(od, t) && !Under(local, t) && !Under(local, Rebase(src, local, od))
  {
    var dst := Rebase(src, local, od);
    assert t[..|od|] == dst[..|od|];
    SeparateTrees(local, od, t);
    SeparateTrees(local, od, dst);
  }

  lemma MoveStepBasic(fs: FileSystem, local: Path, od: Path, raises: set<Path>, cur: FileSystem,
                      todo: set<Path>, done: set<Path>, failedSet: set<Path>, moved: nat, failed: nat, src: Path)
    requires MoveInv(fs, local, cur, todo, done, failedSet, moved, failed)
    requires src in todo
    ensures Under(local, src) && |src| > 0 && src in cur.files
    ensures var step := MoveOne(cur, src, Rebase(src, local, od), src in raises);
      MoveInv(fs, local, step.0, todo - {src}, done + {src},
              if step.1 then failedSet else failedSet + {src},
              if step.1 then moved + 1 else moved, if step.1 then failed else failed + 1)
  {
  }

  lemma MoveStepSeparate(fs: FileSystem, local: Path, od: Path, raises: set<Path>, cur: FileSystem,
                         todo: set<Path>, done: set<Path>, failedSet: set<Path>, src: Path)
    requires Separate(local, od) && SeparateInv(fs, local, raises, cur, todo, done, failedSet)
    requires src in todo && src !in done && src !in failedSet
    ensures var step := MoveOne(cur, src, Rebase(src, local, od), src in raises);
      SeparateInv(fs, local, raises, step.0, todo - {src}, done + {src},
                  if step.1 then failedSet else failedSet + {src})
  {
    var dst := Rebase(src, local, od);
    var step := MoveOne(cur, src, dst, src in raises);
    assert Under(local, src) && |src| > 0;
    var t := if dst in cur.dirs then dst + [src[|src| - 1]] else dst;
    TargetOutside(local, od, src, t);
    if step.1 {
      assert src !in raises;
      assert step.0.files == (cur.files - {src})[t := cur.files[src]];
      FilesBelowMove(cur.files, local, src, t);
      forall s | s in todo - {src} ensures s in step.0.files && step.0.files[s] == fs.files[s] {
        assert s != t;
      }
    } else {
      assert step.0.files == cur.files;
    }
  }

  /** Moving a file from below `root` to somewhere outside it takes it off
      the files below `root` and adds nothing there. */
  lemma FilesBelowMove(files: map<Path, Bytes>, root: Path, src: Path, t: Path)
    requires src in files && !Under(root, t)
    ensures FilesBelow((files - {src})[t := files[src]], root) == FilesBelow(files, root) - {src}
  {
  }

  lemma MoveStepClear(fs: FileSystem, local: Path, od: Path, raises: set<Path>, cur: FileSystem,
                      todo: set<Path>, done: set<Path>, failedSet: set<Path>, src: Path)
    requires Separate(local, od) && SeparateInv(fs, local, raises, cur, todo, done, failedSet)
    requires WellFormed(fs) && ClearInv(fs, local, od, raises, cur, todo, done, failedSet)
    requires src in todo && src !in done
    ensures var step := MoveOne(cur, src, Rebase(src, local, od), src in raises);
      && step.1 == (src !in raises)
      && ClearInv(fs, local, od, raises, step.0, todo - {src}, done + {src},
                  if step.1 then failedSet else failedSet + {src})
  {
    var dst := Rebase(src, local, od);
    var step := MoveOne(cur, src, dst, src in raises);
    assert Under(local, src) && |src| > 0 && src in fs.files;
    TargetOutside(local, od, src, dst);
    assert Ancestors(dst) * cur.files.Keys == {} by {
      forall a | a in Ancestors(dst) ensures a !in cur.files {
        AncestorsMember(a, dst);
      }
    }
    AncestorsMember(dst, dst);
    assert step.0.dirs == cur.dirs + Ancestors(dst);
    forall s | s in todo - {src}
      ensures Rebase(s, local, od) !in step.0.dirs
      ensures forall a :: a in step.0.files ==> !IsAncestor(a, Rebase(s, local, od))
    {
      assert Under(local, s) && s in fs.files;
      AncestorsMember(Rebase(s, local, od), dst);
      RebaseAncestor(s, src, local, od);
      RebaseAncestor(src, s, local, od);
    }
    forall s | s in done && s !in raises
      ensures Rebase(s, local, od) in step.0.files && step.0.files[Rebase(s, local, od)] == fs.files[s]
    {
      assert Under(local, s);
      TargetOutside(local, od, s, Rebase(s, local, od));
      if Rebase(s, local, od) == dst {
        RebaseInjective(s, src, local, od);
      }
    }
    forall s | s in todo - {src} || (s in done + {src} && s in raises)
      ensures Under(local, s) && Untouched(fs.files, step.0.files, Rebase(s, local, od))
    {
      if s != src {
        assert Under(local, s);
        TargetOutside(local, od, s, Rebase(s, local, od));
        if Rebase(s, local, od) == dst {
          RebaseInjective(s, src, local, od);
        }
      }
    }
  }

  /** What pruning after the move loop leaves, from what the loop kept. */
  lemma SyncOutcome(fs: FileSystem, local: Path, od: Path, raises: set<Path>, cur: FileSystem,
                    failedSet: set<Path>, moved: nat, failed: nat)
    requires LoopInv(fs, local, od, raises, cur, {}, IterFiles(fs, local), failedSet, moved, failed)
    ensures var r := Prune(cur, local);
      && moved + failed == |IterFiles(fs, local)|
      && (IterFiles(fs, local) == {} ==> r.files == fs.files && r.dirs <= fs.dirs)
      && (local !in fs.dirs ==> r == fs)
      && (local in r.dirs <==> local in fs.dirs)
      && (forall d :: d in fs.dirs && !Under(local, d) ==> d in r.dirs)
      && (local in fs.dirs ==> forall d :: d in r.dirs && Under(local, d) ==> HasFile(r.files, d))
      && (Separate(local, od) ==> |IterFiles(r, local)| == failed)
      && (Separate(local, od) ==>
            forall s :: s in IterFiles(fs, local) && s in raises ==> s in IterFiles(r, local))
      && (Separate(local, od) ==>
            forall d, s :: d in fs.dirs && s in IterFiles(fs, local) && s in raises && Under(d, s) ==> d in r.dirs)
      && (Separate(local, od) ==>
            forall s :: s in IterFiles(r, local) ==> s in fs.files && r.files[s] == fs.files[s])
      && r.dirs <= fs.dirs + MadeDirs(fs, local, od)
      && (Separate(local, od) && WellFormed(fs) && Clear(fs, local, od) ==>
            && failed == |IterFiles(fs, local) * raises|
            && (forall s :: s in IterFiles(fs, local) && s !in raises ==>
                  Rebase(s, local, od) in r.files && r.files[Rebase(s, local, od)] == fs.files[s])
            && (forall s :: s in IterFiles(fs, local) ==> Ancestors(Rebase(s, local, od)) <= r.dirs)
            && forall s :: s in IterFiles(fs, local) && s in raises ==>
                 && (Rebase(s, local, od) in r.files <==> Rebase(s, local, od) in fs.files)
                 && (Rebase(s, local, od) in fs.files ==> r.files[Rebase(s, local, od)] == fs.files[Rebase(s, local, od)]))
  {
    var r := Prune(cur, local);
    assert !Under(local, local);
    if Separate(local, od) && local in fs.dirs {
      assert IterFiles(r, local) == FilesBelow(cur.files, local) == failedSet;
      forall d, s | d in fs.dirs && s in IterFiles(fs, local) && s in raises && Under(d, s)
        ensures d in r.dirs
      {
        assert s in r.files;
      }
    }
    if Separate(local, od) && WellFormed(fs) && Clear(fs, local, od) {
      forall s, a | s in IterFiles(fs, local) && a in Ancestors(Rebase(s, local, od)) ensures a in r.dirs {
        MadeOutside(local, od, s, a);
      }
      FailedDestinations(fs, local, od, raises, cur, failedSet);
    }
  }

  /** With nothing in the way, the destination of a failed move holds what
      it held before the loop. */
  lemma FailedDestinations(fs: FileSystem, local: Path, od: Path, raises: set<Path>, cur: FileSystem,
                           failedSet: set<Path>)
    requires ClearInv(fs, local, od, raises, cur, {}, IterFiles(fs, local), failedSet)
    ensures forall s :: s in IterFiles(fs, local) && s in raises ==>
      && (Rebase(s, local, od) in cur.files <==> Rebase(s, local, od) in fs.files)
      && (Rebase(s, local, od) in fs.files ==> cur.files[Rebase(s, local, od)] == fs.files[Rebase(s, local, od)])
  {
    forall s | s in IterFiles(fs, local) && s in raises
      ensures Under(local, s) && Untouched(fs.files, cur.files, Rebase(s, local, od))
    {
    }
  }

  /** A folder made for a destination below a separate `od` never lies
      below `local`, so pruning leaves it alone. */
  lemma MadeOutside(local: Path, od: Path, s: Path, a: Path)
    requires Under(local, s) && Separate(local, od) && a in Ancestors(Rebase(s, local, od))
    ensures !Under(local, a)
  {
  }

  /** `sync_local_to_onedrive`: with no OneDrive folder nothing happens and
      the counts are zero; otherwise every file below `local` is moved to
      the same relative path below `oneDrive`, in whatever order `rglob`
      yields them, counting moves and failures, and then the emptied
      directories below `local` are pruned. */
  method SyncLocalToOneDrive(fs: FileSystem, local: Path, oneDrive: Option<Path>, raises: set<Path>)
    returns (r: FileSystem, moved: nat, failed: nat)
    ensures oneDrive.None? ==> r == fs && moved == 0 && failed == 0
    ensures oneDrive.Some? ==> moved + failed == |IterFiles(fs, local)|
    ensures IterFiles(fs, local) == {} ==> r.files == fs.files && r.dirs <= fs.dirs
    ensures local !in fs.dirs ==> r == fs && moved == 0 && failed == 0
    ensures oneDrive.Some? ==> (local in r.dirs <==> local in fs.dirs)
    ensures oneDrive.Some? ==> forall d :: d in fs.dirs && !Under(local, d) ==> d in r.dirs
    ensures oneDrive.Some? && local in fs.dirs ==> forall d :: d in r.dirs && Under(local, d) ==> HasFile(r.files, d)
    ensures forall d :: d in fs.dirs && HasFile(r.files, d) ==> d in r.dirs
    ensures oneDrive.Some? ==>
      forall p :: p in fs.files && p !in IterFiles(fs, local) && p !in Targets(fs, local, oneDrive.value) ==>
        p in r.files && r.files[p] == fs.files[p]
    ensures oneDrive.Some? ==> r.files.Keys <= fs.files.Keys + Targets(fs, local, oneDrive.value)
    ensures oneDrive.Some? ==> r.dirs <= fs.dirs + MadeDirs(fs, local, oneDrive.value)
    ensures oneDrive.Some? && Separate(local, oneDrive.value) ==> |IterFiles(r, local)| == failed
    ensures oneDrive.Some? && Separate(local, oneDrive.value) ==>
      forall s :: s in IterFiles(r, local) ==> s in fs.files && r.files[s] == fs.files[s]
    ensures oneDrive.Some? && Separate(local, oneDrive.value) ==>
      forall s :: s in IterFiles(fs, local) && s in raises ==> s in IterFiles(r, local)
    ensures oneDrive.Some? && Separate(local, oneDrive.value) ==>
      forall d, s :: d in fs.dirs && s in IterFiles(fs, local) && s in raises && Under(d, s) ==> d in r.dirs
    ensures oneDrive.Some? && Separate(local, oneDrive.value) && WellFormed(fs) && Clear(fs, local, oneDrive.value) ==>
      && failed == |IterFiles(fs, local) * raises|
      && (forall s :: s in IterFiles(fs, local) && s !in raises ==>
            Rebase(s, local, oneDrive.value) in r.files && r.files[Rebase(s, local, oneDrive.value)] == fs.files[s])
      && (forall s :: s in IterFiles(fs, local) ==> Ancestors(Rebase(s, local, oneDrive.value)) <= r.dirs)
      && forall s :: s in IterFiles(fs, local) && s in raises ==>
           && (Rebase(s, local, oneDrive.value) in r.files <==> Rebase(s, local, oneDrive.value) in fs.files)
           && (Rebase(s, local, oneDrive.value) in fs.files ==>
                 r.files[Rebase(s, local, oneDrive.value)] == fs.files[Rebase(s, local, oneDrive.value)])
  {
    if oneDrive.None? {
      return fs, 0, 0;
    }
    var cur;
    ghost var failedSet;
    cur, moved, failed, failedSet := MoveFiles(fs, local, oneDrive.value, raises);
    SyncOutcome(fs, local, oneDrive.value, raises, cur, failedSet, moved, failed);
    r := Prune(cur, local);
  }

  /** Everything the move loop keeps. */
  ghost predicate LoopInv(fs: FileSystem, local: Path, od: Path, raises: set<Path>, cur: FileSystem,
                          todo: set<Path>, done: set<Path>, failedSet: set<Path>, moved: nat, failed: nat)
  {
    && MoveInv(fs, local, cur, todo, done, failedSet, moved, failed)
    && FrameInv(fs, local, od, cur)
    && (Separate(local, od) ==> SeparateInv(fs, local, raises, cur, todo, done, failedSet))
    && (Separate(local, od) && WellFormed(fs) && Clear(fs, local, od) ==>
          ClearInv(fs, local, od, raises, cur, todo, done, failedSet))
  }

  /** One iteration of the move loop keeps `LoopInv`. */
  lemma MoveStep(fs: FileSystem, local: Path, od: Path, raises: set<Path>, cur: FileSystem,
                 todo: set<Path>, done: set<Path>, failedSet: set<Path>, moved: nat, failed: nat, src: Path)
    requires LoopInv(fs, local, od, raises, cur, todo, done, failedSet, moved, failed)
    requires src in todo
    ensures Under(local, src) && |src| > 0 && src in cur.files
    ensures var step := MoveOne(cur, src, Rebase(src, local, od), src in raises);
      LoopInv(fs, local, od, raises, step.0, todo - {src}, done + {src},
              if step.1 then failedSet else failedSet + {src},
              if step.1 then moved + 1 else moved, if step.1 then failed else failed + 1)
  {
    MoveStepBasic(fs, local, od, raises, cur, todo, done, failedSet, moved, failed, src);
    MoveStepFrame(fs, local, od, raises, cur, src);
    if Separate(local, od) {
      MoveStepSeparate(fs, local, od, raises, cur, todo, done, failedSet, src);
      if WellFormed(fs) && Clear(fs, local, od) {
        MoveStepClear(fs, local, od, raises, cur, todo, done, failedSet, src);
      }
    }
  }

  /** The move loop's invariant holds before the first iteration. */
  lemma LoopStart(fs: FileSystem, local: Path, od: Path, raises: set<Path>)
    ensures LoopInv(fs, local, od, raises, fs, IterFiles(fs, local), {}, {}, 0, 0)
  {
    StartMoveFrame(fs, local, od);
    StartSeparate(fs, local, raises);
    if Clear(fs, local, od) {
      StartClear(fs, local, od, raises);
    }
  }

  lemma StartMoveFrame(fs: FileSystem, local: Path, od: Path)
    ensures MoveInv(fs, local, fs, IterFiles(fs, local), {}, {}, 0, 0)
    ensures FrameInv(fs, local, od, fs)
  {
  }

  lemma StartSeparate(fs: FileSystem, local: Path, raises: set<Path>)
    ensures SeparateInv(fs, local, raises, fs, IterFiles(fs, local), {}, {})
  {
  }

  lemma StartClear(fs: FileSystem, local: Path, od: Path, raises: set<Path>)
    requires Clear(fs, local, od)
    ensures ClearInv(fs, local, od, raises, fs, IterFiles(fs, local), {}, {})
  {
  }

  /** What the loop invariants give once every file is done: every listed
      file is counted once, files away from the moves are untouched, and
      directories are only added, each one a destination's ancestor; when
      the trees are separate the failed files are the ones left below
      `local`, with their contents; when nothing is in the way either,
      exactly the raising moves fail, every other file sits at its
      destination with its contents, and every destination's folders
      exist. */
  lemma LoopExit(fs: FileSystem, local: Path, od: Path, raises: set<Path>, cur: FileSystem,
                 failedSet: set<Path>, moved: nat, failed: nat)
    requires LoopInv(fs, local, od, raises, cur, {}, IterFiles(fs, local), failedSet, moved, failed)
    ensures forall p :: p in fs.files && p !in IterFiles(fs, local) && p !in Targets(fs, local, od) ==>
      p in cur.files && cur.files[p] == fs.files[p]
    ensures cur.files.Keys <= fs.files.Keys + Targets(fs, local, od)
    ensures moved + failed == |IterFiles(fs, local)|
    ensures fs.dirs <= cur.dirs
    ensures cur.dirs <= fs.dirs + MadeDirs(fs, local, od)
    ensures local !in fs.dirs ==> cur == fs
    ensures Separate(local, od) && local in fs.dirs ==> |FilesBelow(cur.files, local)| == failed
    ensures Separate(local, od) ==>
      forall s :: s in IterFiles(cur, local) ==> s in fs.files && cur.files[s] == fs.files[s]
    ensures Separate(local, od) && WellFormed(fs) && Clear(fs, local, od) ==>
      && failed == |IterFiles(fs, local) * raises|
      && (forall s :: s in IterFiles(fs, local) && s !in raises ==>
            Rebase(s, local, od) in cur.files && cur.files[Rebase(s, local, od)] == fs.files[s])
      && (forall s :: s in IterFiles(fs, local) ==> Ancestors(Rebase(s, local, od)) <= cur.dirs)
      && forall s :: s in IterFiles(fs, local) && s in raises ==>
           && (Rebase(s, local, od) in cur.files <==> Rebase(s, local, od) in fs.files)
           && (Rebase(s, local, od) in fs.files ==> cur.files[Rebase(s, local, od)] == fs.files[Rebase(s, local, od)])
  {
    if Separate(local, od) && WellFormed(fs) && Clear(fs, local, od) {
      FailedDestinations(fs, local, od, raises, cur, failedSet);
    }
  }

  /** The move loop of `sync_local_to_onedrive`, taking the files in
      whatever order `rglob` yields them. */
  method MoveFiles(fs: FileSystem, local: Path, od: Path, raises: set<Path>)
    returns (cur: FileSystem, moved: nat, failed: nat, ghost failedSet: set<Path>)
    ensures forall p :: p in fs.files && p !in IterFiles(fs, local) && p !in Targets(fs, local, od) ==>
      p in cur.files && cur.files[p] == fs.files[p]
    ensures cur.files.Keys <= fs.files.Keys + Targets(fs, local, od)
    ensures moved + failed == |IterFiles(fs, local)|
    ensures fs.dirs <= cur.dirs
    ensures cur.dirs <= fs.dirs + MadeDirs(fs, local, od)
    ensures local !in fs.dirs ==> cur == fs
    ensures Separate(local, od) && local in fs.dirs ==> |FilesBelow(cur.files, local)| == failed
    ensures Separate(local, od) ==>
      forall s :: s in IterFiles(cur, local) ==> s in fs.files && cur.files[s] == fs.files[s]
    ensures Separate(local, od) && WellFormed(fs) && Clear(fs, local, od) ==>
      && failed == |IterFiles(fs, local) * raises|
      && (forall s :: s in IterFiles(fs, local) && s !in raises ==>
            Rebase(s, local, od) in cur.files && cur.files[Rebase(s, local, od)] == fs.files[s])
      && (forall s :: s in IterFiles(fs, local) ==> Ancestors(Rebase(s, local, od)) <= cur.dirs)
      && forall s :: s in IterFiles(fs, local) && s in raises ==>
           && (Rebase(s, local, od) in cur.files <==> Rebase(s, local, od) in fs.files)
           && (Rebase(s, local, od) in fs.files ==> cur.files[Rebase(s, local, od)] == fs.files[Rebase(s, local, od)])
    ensures LoopInv(fs, local, od, raises, cur, {}, IterFiles(fs, local), failedSet, moved, failed)
  {
    var todo := IterFiles(fs, local);
    ghost var done: set<Path> := {};
    failedSet := {};
    cur := fs;
    moved, failed := 0, 0;
    LoopStart(fs, local, od, raises);
    while todo != {}
      invariant LoopInv(fs, local, od, raises, cur, todo, done, failedSet, moved, failed)
      decreases |todo|
    {
      var src :| src in todo;
      MoveStep(fs, local, od, raises, cur, todo, done, failedSet, moved, failed, src);
      var step := MoveOne(cur, src, Rebase(src, local, od), src in raises);
      moved, failed := if step.1 then moved + 1 else moved, if step.1 then failed else failed + 1;
      failedSet := if step.1 then failedSet else failedSet + {src};
      cur := step.0;
      todo := todo - {src};
      done := done + {src};
    }
    LoopExit(fs, local, od, raises, cur, failedSet, moved, failed);
  }

  /** Two runs back to back: when the first one moved everything, the
      second finds nothing to move, fails nothing, and leaves every file
      where the first run put it. */
  method SyncTwice(fs: FileSystem, local: Path, od: Path, raises1: set<Path>, raises2: set<Path>)
    returns (r1: FileSystem, r2: FileSystem, moved1: nat, failed1: nat, moved2: nat, failed2: nat)
    ensures Separate(local, od) && failed1 == 0 ==> moved2 == 0 && failed2 == 0 && r2.files == r1.files
  {
    r1, moved1, failed1 := SyncLocalToOneDrive(fs, local, Some(od), raises1);
    r2, moved2, failed2 := SyncLocalToOneDrive(r1, local, Some(od), raises2);
  }
}

=== FILE: text.dfy ===
/** The few Python `str` operations the configuration and naming code relies
    on: `strip`, `startswith`, `endswith`, `in`, `split(sep, 1)` and
    `rsplit(sep, 1)`, over strings as sequences of characters. */
module Text {
  import opened Wrappers

  /** The characters for which Python's `str.isspace()` holds; `str.strip()`
      with no argument removes exactly these from both ends. */
  const Whitespace: set<char> := {
    ' ', '\t', '\n', '\r', '\U{0B}', '\U{0C}',
    '\U{1C}', '\U{1D}', '\U{1E}', '\U{1F}', '\U{85}', '\U{A0}',
    '\U{1680}', '\U{2000}', '\U{2001}', '\U{2002}', '\U{2003}', '\U{2004}',
    '\U{2005}', '\U{2006}', '\U{2007}', '\U{2008}', '\U{2009}', '\U{200A}',
    '\U{2028}', '\U{2029}', '\U{202F}', '\U{205F}', '\U{3000}'
  }

  /** Every character of `s` belongs to `cs`. */
  predicate AllIn(s: string, cs: set<char>) {
    forall k :: 0 <= k < |s| ==> s[k] in cs
  }

  predicate StartsWith(s: string, prefix: string) {
    |prefix| <= |s| && s[..|prefix|] == prefix
  }

  predicate EndsWith(s: string, suffix: string) {
    |suffix| <= |s| && s[|s| - |suffix|..] == suffix
  }

  /** Python's `sub in s`. */
  predicate Contains(s: string, sub: string) {
    StartsWith(s, sub) || (|s| > 0 && Contains(s[1..], sub))
  }

  /** Python's `s.lstrip(chars)`: drop leading characters that belong to
      `cs`. */
  function LStrip(s: string, cs: set<char>): string
  {
    if |s| > 0 && s[0] in cs then LStrip(s[1..], cs) else s
  }

  /** Python's `s.rstrip(chars)`: drop trailing characters that belong to
      `cs`. */
  function RStrip(s: string, cs: set<char>): string
  {
    if |s| > 0 && s[|s| - 1] in cs then RStrip(s[..|s| - 1], cs) else s
  }

  /** Python's `s.strip(chars)`: drop every leading and trailing character
      that belongs to `cs`. `StripExact` shows which piece of `s` it keeps. */
  function StripSet(s: string, cs: set<char>): string {
    RStrip(LStrip(s, cs), cs)
  }

  /** Python's `s.strip()`. */
  function Strip(s: string): string {
    StripSet(s, Whitespace)
  }

  /** Index of the first occurrence of `c` in `s`. */
  function IndexOf(s: string, c: char): (i: nat)
    requires c in s
    ensures i < |s| && s[i] == c && c !in s[..i]
  {
    if s[0] == c then 0 else 1 + IndexOf(s[1..], c)
  }

  /** Index of the last occurrence of `c` in `s`. */
  function LastIndexOf(s: string, c: char): (i: nat)
    requires c in s
    ensures i < |s| && s[i] == c && c !in s[i + 1..]
  {
    if s[|s| - 1] == c then |s| - 1 else LastIndexOf(s[..|s| - 1], c)
  }

  /** Python's `s.split(sep, 1)` when `sep in s`: the text before the first
      separator and everything after it, which may contain `sep` again. */
  function SplitFirst(s: string, sep: char): (r: Option<(string, string)>)
    ensures r.None? <==> sep !in s
    ensures r.Some? ==> s == r.value.0 + [sep] + r.value.1 && sep !in r.value.0
  {
    if sep !in s then None
    else
      var i := IndexOf(s, sep);
      assert s == s[..i] + [sep] + s[i + 1..];
      Some((s[..i], s[i + 1..]))
  }

  /** Python's `s.rsplit(sep, 1)` when `sep in s`. */
  function SplitLast(s: string, sep: char): (r: Option<(string, string)>)
    ensures r.None? <==> sep !in s
    ensures r.Some? ==> s == r.value.0 + [sep] + r.value.1 && sep !in r.value.1
  {
    if sep !in s then None
    else
      var i := LastIndexOf(s, sep);
      assert s == s[..i] + [sep] + s[i + 1..];
      Some((s[..i], s[i + 1..]))
  }

  /** Python's `s.split(sep)[0]`: the text before the first `sep`, or all of
      `s` when there is none. */
  function FirstField(s: string, sep: char): (r: string)
    ensures sep !in r
    ensures StartsWith(s, r)
    ensures r == s || s[|r|] == sep
  {
    match SplitFirst(s, sep)
    case None => s
    case Some((a, _)) => a
  }

  /** `lstrip` removes exactly a leading run `a` of `cs` characters when
      what follows does not start in `cs`. */
  lemma {:induction false} LStripExact(a: string, m: string, cs: set<char>)
    requires AllIn(a, cs)
    requires m == [] || m[0] !in cs
    ensures LStrip(a + m, cs) == m
  {
    if |a| > 0 {
      assert (a + m)[1..] == a[1..] + m;
      LStripExact(a[1..], m, cs);
    } else {
      assert a + m == m;
    }
  }

  /** `rstrip` removes exactly a trailing run `b` of `cs` characters when
      what precedes it does not end in `cs`. */
  lemma {:induction false} RStripExact(m: string, b: string, cs: set<char>)
    requires AllIn(b, cs)
    requires m == [] || m[|m| - 1] !in cs
    ensures RStrip(m + b, cs) == m
  {
    if |b| > 0 {
      var s := m + b;
      assert s[..|s| - 1] == m + b[..|b| - 1];
      RStripExact(m, b[..|b| - 1], cs);
    } else {
      assert m + b == m;
    }
  }

  /** Stripping is determined by the piece it keeps: whatever `cs`
      characters surround a piece that neither starts nor ends in `cs`,
      stripping returns that piece. */
  lemma StripExact(a: string, m: string, b: string, cs: set<char>)
    requires AllIn(a, cs) && AllIn(b, cs)
    requires m == [] || (m[0] !in cs && m[|m| - 1] !in cs)
    ensures StripSet(a + m + b, cs) == m
  {
    if m == [] {
      assert a + m + b == a + b;
      assert AllIn(a + b, cs);
      assert a + b == (a + b) + [];
      LStripExact(a + b, [], cs);
      assert RStrip([], cs) == [];
    } else {
      assert a + m + b == a + (m + b);
      LStripExact(a, m + b, cs);
      RStripExact(m, b, cs);
    }
  }

  /** `lstrip` keeps a suffix of `s` that does not start in `cs`, and
      everything it cut off is in `cs`. */
  lemma {:induction false} LStripShape(s: string, cs: set<char>)
    ensures |LStrip(s, cs)| <= |s|
    ensures s[|s| - |LStrip(s, cs)|..] == LStrip(s, cs)
    ensures AllIn(s[..|s| - |LStrip(s, cs)|], cs)
    ensures LStrip(s, cs) == [] || LStrip(s, cs)[0] !in cs
  {
    if |s| > 0 && s[0] in cs {
      LStripShape(s[1..], cs);
      var r := LStrip(s[1..], cs);
      assert s[..|s| - |r|] == [s[0]] + s[1..][..|s| - 1 - |r|];
    }
  }

  /** `rstrip` keeps a prefix of `s` that does not end in `cs`, and
      everything it cut off is in `cs`. */
  lemma {:induction false} RStripShape(s: string, cs: set<char>)
    ensures |RStrip(s, cs)| <= |s|
    ensures s[..|RStrip(s, cs)|] == RStrip(s, cs)
    ensures AllIn(s[|RStrip(s, cs)|..], cs)
    ensures RStrip(s, cs) == [] || RStrip(s, cs)[|RStrip(s, cs)| - 1] !in cs
  {
    if |s| > 0 && s[|s| - 1] in cs {
      var t := s[..|s| - 1];
      RStripShape(t, cs);
      var r := RStrip(t, cs);
      assert s[|r|..] == t[|r|..] + [s[|s| - 1]];
    }
  }

  /** What `strip` keeps is a piece of `s` that neither starts nor ends in
      `cs`, with only `cs` characters cut off around it. */
  lemma StripShape(s: string, cs: set<char>)
    ensures var r := StripSet(s, cs);
      exists i :: 0 <= i <= |s| - |r| && s[i..i + |r|] == r
        && AllIn(s[..i], cs) && AllIn(s[i + |r|..], cs)
        && (r == [] || (r[0] !in cs && r[|r| - 1] !in cs))
  {
    var t := LStrip(s, cs);
    LStripShape(s, cs);
    RStripShape(t, cs);
    var r := RStrip(t, cs);
    var i := |s| - |t|;
    assert s[i..i + |r|] == t[..|r|];
    assert s[i + |r|..] == t[|r|..];
    if r != [] {
      assert r[0] == t[0];
    }
  }

  /** Stripping twice is stripping once. */
  lemma StripIdempotent(s: string, cs: set<char>)
    ensures StripSet(StripSet(s, cs), cs) == StripSet(s, cs)
  {
    var r := StripSet(s, cs);
    StripShape(s, cs);
    assert [] + r + [] == r;
    StripExact([], r, [], cs);
  }

  /** `split(sep, 1)` undoes joining on `sep` when the left part has no `sep`:
      the separator is the first one, and the right part may hold more. */
  lemma SplitFirstInverse(k: string, v: string, sep: char)
    requires sep !in k
    ensures SplitFirst(k + [sep] + v, sep) == Some((k, v))
  {
    var s := k + [sep] + v;
    assert s[|k|] == sep;
    var r := SplitFirst(s, sep);
    var k', v' := r.value.0, r.value.1;
    assert |k'| == |k|;
    assert k' == s[..|k|] == k;
    assert v' == s[|k| + 1..] == v;
  }

  /** `rsplit(sep, 1)` undoes joining on `sep` when the right part has no
      `sep`. */
  lemma SplitLastInverse(n: string, e: string, sep: char)
    requires sep !in e
    ensures SplitLast(n + [sep] + e, sep) == Some((n, e))
  {
    var s := n + [sep] + e;
    assert s[|n|] == sep;
    var r := SplitLast(s, sep);
    var n', e' := r.value.0, r.value.1;
    assert |n'| == |n|;
    assert n' == s[..|n|] == n;
    assert e' == s[|n| + 1..] == e;
  }
}

=== FILE: wrappers.dfy ===
/** The Option type used wherever the Python code returns a value or `None`. */
module Wrappers {

  datatype Option<+T> = None | Some(value: T) {

    /** The value in `Some`, or `default` for `None` (Python's `x or default`
        when `x` is the optional result). */
    function GetOr(default: T): T {
      match this
      case Some(v) => v
      case None => default
    }
  }
}
